=== FILE: README.md ===
# koremake orchestrator — a Dafny model

This project models the control plane of koremake, `src/main.ts`. That is the
`run` entry point together with `exportProject`, `exportKoremakeProject`,
`compileShader` and `compileProject`. A run does the following:

1. It checks for the project descriptor `korefile.js`.
2. It loads the project.
3. It compiles every `.glsl` file of the project with the `krafix` shader
   compiler, one after another. Stderr goes through a small line reassembler
   that logs diagnostics.
4. It selects an exporter: one of the built-in exporters, or a plugin found
   under the project's `Backends` directory.
5. It runs the exporter.
6. With `--compile`, it drives the native build tool (`make`, `xcodebuild`,
   or a generated `build.bat` for MSBuild). After a successful build it copies
   the binary and, with `--run`, launches it.

The model is pure. A `World` value (`Pipeline.World`) holds everything the run
learns from outside:

- the options and the ambient graphics API;
- the engine root and the executable suffix;
- whether `korefile.js` exists, and what the project loader reports;
- the `Backends` listing;
- for each shader job, the compiler's output chunks and exit code;
- whether the exporter throws;
- the environment;
- the build tool's output and exit code.

Everything the run does becomes an `Action` in a trace (`Actions.Action`): a
log line, a directory creation, a compiler spawn, the export, a file write, a
build-tool spawn, a copy, a launch, a process exit. How the run ends is a
`Completion`: `run` returns a name (empty after a handled failure), the process
exits with a code, or the returned promise never settles.

The build tool's `'close'` handler is a parameter, `Build.Handler`:

- `AsWritten` is the handler in the source.
- `Corrected` also resolves the promise after a successful build.

`Pipeline.Run(Build.AsWritten, w)` is the source as written. The discrepancy
between the two handlers is recorded under "## Findings".

Modules, by file:

- `results.dfy`: `Option`, `Result`, `Outcome`.
- `strings.dfy`: `startsWith`, `endsWith`, `lastIndexOf`, `trim`, number-to-text and path joining.
- `search.dfy`: first and last match in a listing.
- `catalogue.dfy`: `fromPlatform` and `shaderLang`.
- `stderr_parser.dfy`: the stderr line reassembler.
- `actions.dfy`: the directory listing, child-process runs, actions and completions.
- `shader_compiler.dfy`: `compileShader`.
- `shader_jobs.dfy`: the shader job list and output names.
- `exporters.dfy`: exporter selection.
- `build.dfy`: build dispatch, the Visual Studio probe, `build.bat`, and the post-build copy, run and exit.
- `pipeline.dfy`: `run` end to end.

Details of the code that the model keeps:

- The `break` at src/main.ts:266 leaves only the inner loop of the plugin
  scan. Every later directory with a plugin overwrites the choice, so the
  last such directory wins, with its first plugin module
  (`Exporters.ScanPlugins`).
- A project-loader error is logged twice: once in `exportKoremakeProject`
  (src/main.ts:207) and again in `run` (src/main.ts:360). `Pipeline.Run`
  states both lines.
- Each shader compilation is awaited before the next one starts
  (src/main.ts:233), so the jobs run in order. Within one child process, the
  callbacks arrive in the order of its `Chunk` list.

## Model

| member | source | states |
|---|---|---|
| Catalogue.FromPlatform | src/main.ts:22-51 | The display name is "unknown" exactly for strings outside the platform table; each platform identifier gets its own display name. |
| Catalogue.DisplayNamesDistinct | src/main.ts:22-51 | Two different platforms never share a display name, so the "Creating … project files." line identifies the platform. |
| Catalogue.PlatformRoundTrip | src/main.ts:22-51 | Comparing a platform's identifier against the table finds that platform again (the identifiers are pairwise distinct). |
| Catalogue.ShaderLang | src/main.ts:53-115 | An unknown platform is its own dialect; every known platform gets one of glsl, essl, d3d9, d3d11, spirv, metal. |
| Catalogue.WindowsDialect | src/main.ts:55-70 | On Windows: d3d11 iff Direct3D 11 or 12; glsl iff OpenGL or OpenGL2; spirv iff Vulkan; d3d9 for every other API string, the default included. |
| Catalogue.SingleBackendIgnoresApi | src/main.ts:53-115 | Windows App, PlayStation 3, Xbox 360, HTML5, Tizen and Pi compile to the same dialect whatever the API. |
| Catalogue.MetalOnlyForMetal | src/main.ts:75-89 | iOS, tvOS and OS X compile to metal iff the Metal API is selected. |
| Catalogue.SpirvOnlyForVulkan | src/main.ts:53-115 | Android, Linux and Windows compile to spirv iff the Vulkan API is selected. |
| Strings.LastIndexOf | src/main.ts:225 | The result is -1 or the position of an occurrence, and no occurrence follows it. |
| Strings.TrimSpec | src/main.ts:160-163 | `trim` keeps a contiguous part of the text. It removes only whitespace. What it keeps neither starts nor ends with whitespace. It is empty iff the text is all whitespace. |
| StderrParser.Feed | src/main.ts:155-177 | Feeding characters emits exactly one event per newline. |
| StderrParser.FeedConcat | src/main.ts:147-177 | The three variables carried across chunks make feeding `a` then `b` the same as feeding `a + b`: same events, same final state. |
| StderrParser.ChunkIndependence | src/main.ts:147-177 | However the decoded stderr text is cut into chunks, the events and the final state equal those of the whole text. |
| StderrParser.FeedWithinLine | src/main.ts:169-176 | Past the first character of a line, every non-newline character is kept as text, a `#` included. |
| StderrParser.PartialLine | src/main.ts:155-177 | An unterminated line emits nothing and stays buffered; a leading `#` sets the data flag and is dropped. |
| StderrParser.CompleteLine | src/main.ts:158-168 | A complete line emits exactly its own event and returns to the start-of-line state. |
| StderrParser.Reassembly | src/main.ts:155-177 | Complete lines followed by an unterminated tail give one event per line, in order, with the tail left buffered. |
| StderrParser.SplitLinesSpec | src/main.ts:157-158 | Every text splits into newline-free complete lines and a newline-free tail that rejoin to the text. |
| StderrParser.ReassemblyOfAnyStream | src/main.ts:155-177 | On any text: one event per complete line, in order, and the unterminated tail buffered. |
| StderrParser.MarkedLinesNeverLogged | src/main.ts:159-164 | A line starting with `#` goes to the data handler and is never logged; any other line is logged as an error, trimmed, at its own position. |
| StderrParser.OnData | src/main.ts:155-178 | The source's per-character loop over one chunk computes the same state and events as `Feed`. |
| ShaderCompiler.BundledCompiler | src/main.ts:119-123 | The bundled compiler path is empty iff no engine root is configured. |
| ShaderCompiler.CompilerPathBundled | src/main.ts:119-136 | If no `Backends` directory holds `krafix/krafix-<platform>.exe`, the bundled compiler is used. |
| ShaderCompiler.CompilerPathLast | src/main.ts:125-136 | The last listed backend holding the platform's compiler provides the path, whatever the earlier ones hold. |
| ShaderCompiler.CompilerPathEmpty | src/main.ts:119-192 | No compiler is found iff there is no engine root and no backend holds one. |
| ShaderCompiler.ResolveCompilerPath | src/main.ts:119-136 | The source's overwrite loop over the `Backends` entries yields `CompilerPath`. |
| ShaderCompiler.CompilerArgs | src/main.ts:139-140 | The arguments are dialect, source, destination, temp directory and platform, in that order, with `--debug` appended iff debug is set. |
| ShaderCompiler.ErrorLinesFollowStderr | src/main.ts:143-178 | However stdout and stderr callbacks interleave, the error lines logged are those the reassembler emits for the whole stderr text. |
| ShaderCompiler.InfoLinesFollowStdout | src/main.ts:143-145 | However the callbacks interleave, the info lines logged are the stdout chunks, verbatim and in order. |
| ShaderCompiler.LocateCompiler | src/main.ts:119-192 | A `Backends` entry that exists but is no directory fails with the ENOTDIR error naming its path. Without `Backends` the bundled compiler under the Kore directory is used, and the lookup fails iff there is no Kore directory. With a listing the result is the path the search finds, and the lookup fails with "Could not find shader compiler." iff that search finds nothing. A located path is never empty. |
| ShaderCompiler.LocateCompilerFound | src/main.ts:119-192 | A compiler is located iff `Backends` is absent or a directory, and either a Kore directory is known or some `Backends` entry holds a krafix binary for the platform. |
| ShaderCompiler.CompileShader | src/main.ts:117-194 | A compilation passes iff a compiler is located and exits 0. A locate failure spawns nothing and carries its error. All actions are log lines or the one spawn. |
| ShaderCompiler.CompileShaderActions | src/main.ts:138-188 | The spawn comes first, with the argument vector; everything after it is a log line. Error lines are exactly the reassembled stderr lines, and info lines exactly the stdout chunks, in order. A non-zero exit fails with "Shader compiler error.". |
| ShaderJobs.GlslFilesMembers | src/main.ts:216-223 | The files compiled are exactly the project files ending in `.glsl`. |
| ShaderJobs.OutputTail | src/main.ts:224-226 | The kept tail is a suffix of the file and holds no `/` after its first character. |
| ShaderJobs.OutputTailCases | src/main.ts:224-226 | A file with no `/` past index 0 is kept whole; otherwise the tail starts with a `/`. |
| ShaderJobs.OutputTailAt | src/main.ts:224-226 | The tail is the suffix starting at the last `/` past index 0, slash included. |
| ShaderJobs.OutputName | src/main.ts:224-227 | The output name holds no `/` past its first character; for a shader source it is the tail with `.glsl` removed. |
| ShaderJobs.ShaderName | src/main.ts:229-230 | The name is free of `/`. For a shader source whose base name is longer than `.glsl`, the name followed by `.glsl` is the base name; a base name of at most five characters is kept whole. |
| ShaderJobs.ProgressLine | src/main.ts:230 | The line starts with "Compiling shader <index> of <count>", ends with " (<name>).", and has nothing between. |
| ShaderJobs.ProgressLineParts | src/main.ts:230 | With digit-only numbers, two equal progress lines have equal numbers and names. |
| ShaderJobs.ProgressMessage | src/main.ts:229-230 | A job's progress line starts with "Compiling shader ", the job's 1-based number, " of " and the total, and ends with the shader's name in parentheses and a full stop, with nothing between. |
| ShaderJobs.ProgressMessageParts | src/main.ts:229-230 | Equal progress lines carry the same decimal texts for the number and the total, and the same shader name. |
| ShaderJobs.ProgressMessageDetermines | src/main.ts:229-230 | The progress line determines the job's number, the total and the shader's name. |
| ShaderJobs.ShaderJobsShape | src/main.ts:213-236 | `--noshaders` gives no jobs. Otherwise there is one job per shader source, in file-list order. Job k has number k + 1 of the total, the platform's dialect, temp "build", and an output below the debug directory. |
| ShaderJobs.CountShaders | src/main.ts:215-220 | The counting pass counts the shader sources. |
| ShaderJobs.PlanShaderJobs | src/main.ts:213-236 | The source's counting and numbering loops produce `ShaderJobs`. |
| Exporters.Builtin | src/main.ts:239-254 | A member of the platform table never gets a plugin exporter. |
| Exporters.FixedExporterTable | src/main.ts:238-243 | XCode serves exactly iOS, OS X and tvOS; Android exactly Android; Emscripten exactly HTML5; Linux exactly Linux and Raspberry Pi; Tizen exactly Tizen. |
| Exporters.VisualStudioFallback | src/main.ts:244-254 | The Visual Studio exporter goes exactly to Windows, Windows App, PlayStation 3 and Xbox 360. |
| Exporters.PluginOf | src/main.ts:259-268 | A plugin is a module `Exporter*.js` listed in that `Backends` directory. |
| Exporters.ScanPlugins | src/main.ts:255-272 | The scan finds nothing iff no directory lists a plugin module. Otherwise the last such directory wins, with its first plugin module. |
| Exporters.ScanPluginDirs | src/main.ts:256-271 | The source's nested loops, whose `break` leaves only the inner loop, compute `ScanPlugins`. |
| Exporters.SelectExporter | src/main.ts:238-277 | A known platform gets its built-in exporter. An unknown platform gets only a plugin, scanned only when `Backends` is a directory; otherwise it gets none. |
| Build.BuildPath | src/main.ts:353 | The build path is "Debug" iff debug is set, "Release" otherwise. |
| Build.FirstSet | src/main.ts:378-386 | The first set variable of a list: none iff none is set, and every earlier one is unset. |
| Build.VsVarsPriority | src/main.ts:377-386 | VS140 beats VS120, which beats VS110; no Visual Studio is found iff none of the three is set. |
| Build.BuildScriptLines | src/main.ts:388 | `build.bat` is two lines: the `vsvars32.bat` call, then MSBuild on `<name>.vcxproj` with `/m /p:Configuration=Debug,Platform=Win32`. |
| Build.StartBuild | src/main.ts:365-394 | Dispatch goes Linux, then OS X, then Windows, where the custom base target also counts. A tool is spawned iff one of those matches (Windows also needs Visual Studio). The spawn is the last action, with the source's command, arguments and directory. |
| Build.BuildOutputLogs | src/main.ts:299-305 | Build output is logged chunk by chunk, verbatim: stdout as info, stderr as error. |
| Build.OnBuildSuccess | src/main.ts:308-325 | Only Linux and Windows copy, and the copy comes first. Without `--run` nothing but the copy happens. With it: OS X runs `open` on the app bundle's binary in the build directory; otherwise Linux, and then Windows, launch the binary just copied (on Windows without its `.exe`), from the debug directory; any other platform logs "--run not yet implemented for this platform" and nothing else. |
| Build.AfterBuildAsWritten | src/main.ts:307-331 | Exit 0 takes exactly the copy and launch actions of a successful build and never settles the promise. Any other exit code logs "Compilation failed." and exits the process with that code. |
| Build.AfterBuildCorrected | src/main.ts:307-331 | Exit 0 takes exactly the copy and launch actions of a successful build and returns the solution name without exiting. Failure is as written. |
| Build.AsWrittenNeverReturns | src/main.ts:307-326 | On exit 0 the handler as written stays pending where the corrected one returns the name, and both take the same actions. |
| Build.AfterBuildBy | src/main.ts:307-331 | A non-zero exit exits with that code under either handler. Exit 0 takes the copy and launch actions; it never settles under `AsWritten` and returns the name under `Corrected`. |
| Build.AfterSpawn | src/main.ts:299-331 | A spawned build logs its output chunk by chunk, then takes the success actions on exit 0, or logs "Compilation failed." and exits with the code otherwise. |
| Build.RunBuild | src/main.ts:365-403 | The stage is "Compiling...", then the dispatch's actions. Without a spawned tool it ends with "--compile not yet implemented…" and returns the name. With one, the tool's output follows, then the success actions on exit 0 or "Compilation failed." and the exit otherwise; the exit code and handler decide the ending. |
| Build.RunBuildEnds | src/main.ts:396-403 | The build stage never settles iff a tool is spawned, exits 0 and the handler is the source's. It exits iff a spawned tool fails. |
| Build.RunBuildHandlers | src/main.ts:307-331 | The handler changes only how the stage ends, not its actions. |
| Build.RunBuildWithoutVisualStudio | src/main.ts:376-403 | On a Windows target without a Visual Studio installation the stage logs "Compiling...", "Visual Studio not found." and "--compile not yet implemented…", spawns nothing and returns the name. |
| Build.RunBuildSuccessEnds | src/main.ts:307-326 | A spawned build that exits 0 ends the stage with the copy and launch actions; on Linux the binary built under the build path is copied into the debug directory, overwriting it. |
| Pipeline.RunShaders | src/main.ts:221-235 | Each job is announced by its progress line before its compiler actions; the stage holds only log lines and compiler spawns. |
| Pipeline.RunShadersPass | src/main.ts:221-235 | The shader stage passes iff every job compiles. |
| Pipeline.StopsAtFirstFailure | src/main.ts:233 | Jobs after the first failing one are neither announced nor compiled, and the stage fails with that job's error. |
| Pipeline.Run | src/main.ts:337-406 | A missing `korefile.js` logs "korefile.js not found." and returns "". A loader error is logged twice after the intro lines and "" is returned. A non-empty return is the loaded project's name after an export. The run never settles only with the source's handler after `--compile` and exit 0. An exit needs a loaded project and an export, and carries the build tool's code as the last action. |
| Pipeline.ExportAfterShaders | src/main.ts:221-279 | The exporter runs at most once, after every shader compiler spawn. |
| Pipeline.ShaderFailureAbortsRun | src/main.ts:355-362 | A failing shader job (its rejection propagating from src/main.ts:233) ends the run with "" and its error logged last; nothing is exported. |
| Pipeline.NoExporterAbortsRun | src/main.ts:355-362 | Without an exporter (the throw at src/main.ts:275-277) the run logs "No exporter found for platform ….", exports nothing and returns "". |
| Pipeline.ExportFailureAbortsRun | src/main.ts:355-362 | A throwing exporter (src/main.ts:279) is invoked once, its error is logged, and the run returns "". |
| Pipeline.ExportOnlyRun | src/main.ts:363-405 | Without `--compile` or without a name, the export is the last action, no build tool is spawned and the run returns the project name. |
| Pipeline.BuildDecidesRun | src/main.ts:365-403 | With `--compile` and a name: exit iff a spawned tool failed; else pending iff spawned under the source's handler; else the name is returned. |
| Pipeline.HandlersFromExport | src/main.ts:365-403 | From the export on, both handlers take the same actions. The source's handler stays pending iff the build succeeds. Otherwise both end the same way. |
| Pipeline.NeverSettlesExactly | src/main.ts:307-398 | With the source's handler, `run` never settles iff a spawned build tool exits 0. The corrected handler returns the name there, every other run ends the same, and the traces agree. |
| Pipeline.ExportThenBuild | src/main.ts:279-403 | With an exporter that succeeds, `--compile` and a name, the run from the export on is the export followed by the build stage, and ends as that stage does. |
| Pipeline.VisualStudioMissingRun | src/main.ts:365-403 | A whole run to a Windows target without Visual Studio exports, logs "Visual Studio not found." and "--compile not yet implemented…" last, and returns the project name. |
| Pipeline.SuccessfulExportAndBuild | src/main.ts:307-326 | From the export on, a successful build ends the trace with the copy and launch actions, and on Linux the trace holds the copy of the binary. |
| Pipeline.SuccessfulBuildCopies | src/main.ts:307-326 | A whole run whose build tool exits 0 ends with the copy and launch actions; on Linux the binary built under the build path is copied into the project's debug directory. |

## Left out

- The identifier strings of the `Platform` and `GraphicsApi` tables ("windows", "ios", "opengl2", "direct3d11", …) are assumed: `src/Platform.ts` and `src/GraphicsApi.ts` are not part of this model. The model also assumes that `Platform` has exactly the twelve members `Catalogue.Platform` lists. The membership loop at src/main.ts:246-251 gives the Visual Studio exporter to every member of `Platform` outside the fixed table. So if the real table holds a member the model does not list, the source exports that member with Visual Studio, while `Catalogue.FromPlatform`, `Exporters.SelectExporter` and `Exporters.VisualStudioFallback` treat it as unknown and scan for a plugin. Apart from that, the properties rely only on the identifiers being pairwise distinct.
- `src/Project.ts`, the exporters and `src/Options.ts` are not part of this model. The project loader is a `World` field that gives either a name, a flattened file list and a debug directory, or an error. An exporter is a tag plus an optional thrown error.
- `log.set(loglog)` (src/main.ts:338) is left out: logging is the `Log` action, whatever sink receives it.
- `options.visualstudio` (src/main.ts:344-346) is left out: it only sets `Options.visualStudioVersion`, which the exporters read.
- Spawn failures are left out. The source installs no `'error'` listener on either child (src/main.ts:141, 371-389), and the bundled compiler's existence is never checked. The model assumes every spawn starts and eventually closes.
- A `null` exit code (a child killed by a signal) is left out; `ToolRun.exitCode` is always an integer. In the source, `null` takes the failure branches: `reject` at src/main.ts:186, or `process.exit(null)` at :329.
- Pipeline.ExportAndBuild: `exportSolution` is not awaited at src/main.ts:279. The model treats the exporter as finishing, or throwing synchronously (`exportError`), before the build starts; an asynchronous exporter failure is not modelled.
- Throws from `fs.copySync`, `fs.statSync`, `fs.ensureDirSync`, `fs.writeFileSync` and `require` are left out. The one thrown filesystem error modelled is `readdirSync` on a `Backends` that is not a directory (`CompileError.BackendsUnreadable`), with its Node.js message.
- Strings.JoinPath: it joins with exactly one `/` and performs no normalisation. `path.join`/`path.resolve` collapse `dir//name` (the output name keeps its leading `/`) and resolve relative paths against the working directory. Paths in the trace are therefore the joined strings, not the normalised ones.
- StderrParser.ChunkIndependence: it holds over decoded characters. The source decodes each `Buffer` chunk on its own (`data.toString()`, src/main.ts:156), so a UTF-8 sequence split across two chunks becomes U+FFFD in both halves, and there chunk boundaries can change the logged text. `Actions.Chunk` holds each chunk already decoded.
- Build.RunBuild and Pipeline.Run take the `'close'` handler as a parameter. Only `Build.AsWritten` is the source as written; `Build.Corrected` is the intended behaviour described under "## Findings".
- The text `log.error` prints for a thrown `Error` object (the `ENOTDIR` case) is modelled as its message only.

## Findings

| source | as written | input that shows it | evidently intended | confidence | as-written member | corrected member |
|---|---|---|---|---|---|---|
| src/main.ts:307-398 | The build tool's `'close'` handler calls neither `resolve` nor `reject` when the exit code is 0, so `await compileProject(...)` never resumes and `return solutionName` is unreachable. | `--compile` with target `linux`, a loadable project with a non-empty name, and `make` exiting 0: the binary is copied, but `run` never settles. | Resolve the promise after the copy and optional launch, so that `run` returns the solution name. | not executed | Build.AfterBuildAsWritten (with Build.AsWrittenNeverReturns and Pipeline.NeverSettlesExactly) | Build.AfterBuildCorrected |

=== FILE: actions.dfy ===
/** What the orchestrator observes of the outside world and what it does to it.

    A directory listing replaces `fs.existsSync`/`readdirSync`/`statSync`; the
    output and exit code of a child process replace `child_process.spawn` and
    its stream events; every effect the orchestrator has (a log line, a spawn,
    a file write or copy, a process exit) becomes an `Action` value. */
module FileTree {

  /** One entry of a directory listing, in listing order: its name, whether it
      is a directory, the names it lists when it is one, and the relative paths
      (`a/b/c`) that exist anywhere below it. */
  datatype DirEntry = DirEntry(name: string, isDir: bool, files: seq<string>, nested: set<string>)

  /** The project's `Backends` path: missing, present but not a directory, or
      a directory with its listing. */
  datatype Backends = Absent | NotADirectory | Listing(entries: seq<DirEntry>)
}

module Actions {
  import opened FileTree
  import Exporters

  datatype Level = Info | Error

  /** One `'data'` callback of a child process: a stdout or a stderr chunk,
      already decoded to characters; each chunk is decoded on its own. */
  datatype Chunk = Stdout(text: string) | Stderr(text: string)

  /** Everything a child process does, as the orchestrator sees it: its output
      callbacks in arrival order and its exit code. */
  datatype ToolRun = ToolRun(output: seq<Chunk>, exitCode: int)

  datatype Action =
    | Log(level: Level, text: string)
    | EnsureDir(path: string)
    | RunShaderCompiler(command: string, args: seq<string>)
    | Export(exporter: Exporters.Exporter, from: string, to: string, platform: string)
    | WriteFile(path: string, contents: string)
    | SpawnBuild(command: string, args: seq<string>, cwd: string)
    | CopyOverwrite(source: string, dest: string)
    | Launch(command: string, args: seq<string>, cwd: string)   // console I/O inherited
    | ExitProcess(code: int)

  /** An action of the build stage: none of the shader stage's or the
      export's actions. */
  predicate IsBuildStageAction(a: Action)
  {
    !a.RunShaderCompiler? && !a.Export? && !a.EnsureDir?
  }

  /** The last action of a trace is `a`. */
  predicate LastIs(trace: seq<Action>, a: Action)
  {
    |trace| >= 1 && trace[|trace| - 1] == a
  }

  /** A trace ends with the actions `tail`. */
  predicate EndsWithActions(trace: seq<Action>, tail: seq<Action>)
  {
    |tail| <= |trace| && trace[|trace| - |tail|..] == tail
  }

  /** How a run ends: `run` returns a solution name (empty on a handled
      failure), the process exits, or the returned promise never settles. */
  datatype Completion = Returned(name: string) | Exited(code: int) | NeverSettles
}

=== FILE: build.dfy ===
/** The build stage of `run` (src/main.ts:353, 365-405) and the post-build
    decisions of `compileProject` (src/main.ts:297-333). */
module Build {
  import opened Results
  import opened Strings
  import opened Actions
  import C = Catalogue

  /** The platform tests of the build stage look at the custom target's base
      platform (when there is a custom target) and at the target itself. */
  datatype Target = Target(target: string, customBase: Option<string>)

  predicate TargetIs(t: Target, p: C.Platform)
  {
    t.customBase == Some(C.Id(p)) || t.target == C.Id(p)
  }

  /** `options.buildPath`. */
  function BuildPath(debug: bool): (r: string)
    ensures r == "Debug" <==> debug
    ensures r == "Release" <==> !debug
  {
    if debug then "Debug" else "Release"
  }

  /** The Visual Studio tool variables, newest first. */
  const VsToolVars: seq<string> := ["VS140COMNTOOLS", "VS120COMNTOOLS", "VS110COMNTOOLS"]

  /** An environment variable is truthy: present and non-empty. */
  predicate IsSet(env: map<string, string>, key: string)
  {
    key in env && env[key] != ""
  }

  /** The first of `keys` that is set. */
  function FirstSet(env: map<string, string>, keys: seq<string>): (r: Option<string>)
    ensures r.None? <==> forall k :: 0 <= k < |keys| ==> !IsSet(env, keys[k])
    ensures r.Some? ==> IsSet(env, r.value)
    ensures r.Some? ==> exists i :: 0 <= i < |keys| && keys[i] == r.value
                          && forall j :: 0 <= j < i ==> !IsSet(env, keys[j])
  {
    if keys == [] then None
    else if IsSet(env, keys[0]) then Some(keys[0])
    else
      var r := FirstSet(env, keys[1..]);
      if r.Some? then
        var i :| 0 <= i < |keys| - 1 && keys[1..][i] == r.value && forall j :: 0 <= j < i ==> !IsSet(env, keys[1..][j]);
        assert keys[i + 1] == r.value;
        r
      else r
  }

  /** The `vsvars32.bat` of the newest installed Visual Studio, if any. */
  function VsVars(env: map<string, string>): (r: Option<string>)
  {
    match FirstSet(env, VsToolVars)
    case None => None
    case Some(key) => Some(env[key] + "\\vsvars32.bat")
  }

  /** The probe order: VS140 beats VS120 beats VS110, and nothing is found
      only when none of them is set. */
  lemma VsVarsPriority(env: map<string, string>)
    ensures VsVars(env).None? <==>
      !IsSet(env, "VS140COMNTOOLS") && !IsSet(env, "VS120COMNTOOLS") && !IsSet(env, "VS110COMNTOOLS")
    ensures IsSet(env, "VS140COMNTOOLS") ==> VsVars(env) == Some(env["VS140COMNTOOLS"] + "\\vsvars32.bat")
    ensures !IsSet(env, "VS140COMNTOOLS") && IsSet(env, "VS120COMNTOOLS") ==>
      VsVars(env) == Some(env["VS120COMNTOOLS"] + "\\vsvars32.bat")
    ensures !IsSet(env, "VS140COMNTOOLS") && !IsSet(env, "VS120COMNTOOLS") && IsSet(env, "VS110COMNTOOLS") ==>
      VsVars(env) == Some(env["VS110COMNTOOLS"] + "\\vsvars32.bat")
  {
    var keys := VsToolVars;
    assert keys[0] == "VS140COMNTOOLS" && keys[1] == "VS120COMNTOOLS" && keys[2] == "VS110COMNTOOLS";
    assert keys[1..][1..] == ["VS110COMNTOOLS"];
  }

  /** The generated `build.bat`: load the Visual Studio environment, then
      build the project with MSBuild, multi-processor, Debug/Win32. */
  function BuildScript(vsvars: string, solutionName: string): string
  {
    "@call \"" + vsvars + "\"\n"
      + "@MSBuild.exe \"" + solutionName + ".vcxproj\" /m /p:Configuration=Debug,Platform=Win32"
  }

  /** The build script is two lines, the environment call then the MSBuild
      call, when neither path contains a newline. */
  lemma BuildScriptLines(vsvars: string, solutionName: string)
    requires '\n' !in vsvars && '\n' !in solutionName
    ensures var text := BuildScript(vsvars, solutionName);
      var n := |vsvars| + 8;
      && text[n] == '\n'
      && text[..n] == "@call \"" + vsvars + "\""
      && text[n + 1..] == "@MSBuild.exe \"" + solutionName + ".vcxproj\" /m /p:Configuration=Debug,Platform=Win32"
      && '\n' !in text[..n]
  {
    var first := "@call \"" + vsvars + "\"";
    var second := "@MSBuild.exe \"" + solutionName + ".vcxproj\" /m /p:Configuration=Debug,Platform=Win32";
    assert BuildScript(vsvars, solutionName) == first + "\n" + second;
    assert '\n' !in "@call \"" && '\n' !in "\"";
  }

  /** The start of the build stage: the actions taken before the build tool's
      output arrives, and whether a build tool was spawned. */
  datatype BuildStart = BuildStart(actions: seq<Action>, spawned: bool)

  /** Dispatch on the effective target, Linux first, then OS X, then Windows. */
  function StartBuild(t: Target, to: string, buildPath: string, solutionName: string, env: map<string, string>)
    : (r: BuildStart)
    ensures r.spawned <==> TargetIs(t, C.Linux) || TargetIs(t, C.OSX) || (TargetIs(t, C.Windows) && VsVars(env).Some?)
    ensures r.spawned ==> |r.actions| >= 1 && r.actions[|r.actions| - 1].SpawnBuild?
                          && forall k :: 0 <= k < |r.actions| - 1 ==> !r.actions[k].SpawnBuild?
    ensures !r.spawned ==> forall k :: 0 <= k < |r.actions| ==> !r.actions[k].SpawnBuild?
    ensures forall k :: 0 <= k < |r.actions| ==> IsBuildStageAction(r.actions[k])
    ensures TargetIs(t, C.Linux) ==> r.actions == [SpawnBuild("make", [], JoinPath(to, buildPath))]
    ensures !TargetIs(t, C.Linux) && TargetIs(t, C.OSX) ==>
              r.actions == [SpawnBuild("xcodebuild", ["-project", solutionName + ".xcodeproj"], to)]
    ensures !TargetIs(t, C.Linux) && !TargetIs(t, C.OSX) && TargetIs(t, C.Windows) ==>
              if VsVars(env).Some? then
                r.actions == [WriteFile(JoinPath(to, "build.bat"), BuildScript(VsVars(env).value, solutionName)),
                              SpawnBuild("build.bat", [], to)]
              else r.actions == [Log(Error, "Visual Studio not found.")]
  {
    if TargetIs(t, C.Linux) then
      BuildStart([SpawnBuild("make", [], JoinPath(to, buildPath))], true)
    else if TargetIs(t, C.OSX) then
      BuildStart([SpawnBuild("xcodebuild", ["-project", solutionName + ".xcodeproj"], to)], true)
    else if TargetIs(t, C.Windows) then
      match VsVars(env)
      case Some(vsvars) =>
        BuildStart([WriteFile(JoinPath(to, "build.bat"), BuildScript(vsvars, solutionName)),
                    SpawnBuild("build.bat", [], to)], true)
      case None => BuildStart([Log(Error, "Visual Studio not found.")], false)
    else BuildStart([], false)
  }

  /** The build tool's output: stdout as info, stderr as error, chunk by
      chunk and verbatim (no line reassembly). */
  function BuildOutputLogs(chunks: seq<Chunk>): (r: seq<Action>)
    ensures |r| == |chunks|
    ensures forall k :: 0 <= k < |chunks| ==>
              r[k] == Log(if chunks[k].Stdout? then Info else Error, chunks[k].text)
    ensures forall k :: 0 <= k < |r| ==> IsBuildStageAction(r[k])
  {
    if chunks == [] then []
    else [Log(if chunks[0].Stdout? then Info else Error, chunks[0].text)] + BuildOutputLogs(chunks[1..])
  }

  /** What the build stage needs to know about the project. */
  datatype Built = Built(from: string, to: string, buildPath: string, debugDir: string, solutionName: string, run: bool)

  /** The copy of the built binary back into the project's debug directory. */
  function Copies(t: Target, b: Built): (r: seq<Action>)
    ensures forall k :: 0 <= k < |r| ==> r[k].CopyOverwrite?
    ensures |r| <= 1 && (|r| == 1 <==> TargetIs(t, C.Linux) || TargetIs(t, C.Windows))
  {
    if TargetIs(t, C.Linux) then
      [CopyOverwrite(JoinPath(JoinPath(b.to, b.buildPath), b.solutionName),
                     JoinPath(JoinPath(b.from, b.debugDir), b.solutionName))]
    else if TargetIs(t, C.Windows) then
      [CopyOverwrite(JoinPath(JoinPath(b.to, "Debug"), b.solutionName + ".exe"),
                     JoinPath(JoinPath(b.from, b.debugDir), b.solutionName + ".exe"))]
    else []
  }

  /** The launch of the built program, when `--run` was given. */
  function Launches(t: Target, b: Built): (r: seq<Action>)
    ensures forall k :: 0 <= k < |r| ==> r[k].Launch? || r[k].Log?
    ensures (forall k :: 0 <= k < |r| ==> !r[k].Launch?) <==>
              !b.run || !(TargetIs(t, C.OSX) || TargetIs(t, C.Linux) || TargetIs(t, C.Windows))
    ensures !b.run <==> r == []
    ensures b.run ==> |r| == 1
  {
    if !b.run then []
    else if TargetIs(t, C.OSX) then
      var r := [Launch("open", ["build/Release/" + b.solutionName + ".app/Contents/MacOS/" + b.solutionName], b.to)];
      assert r[0].Launch?;
      r
    else if TargetIs(t, C.Linux) || TargetIs(t, C.Windows) then
      var r := [Launch(JoinPath(JoinPath(b.from, b.debugDir), b.solutionName), [], JoinPath(b.from, b.debugDir))];
      assert r[0].Launch?;
      r
    else [Log(Info, "--run not yet implemented for this platform")]
  }

  /** Copies first, then the launch: the launch sees the copied binary. */
  lemma CopyThenLaunch(copy: seq<Action>, launch: seq<Action>)
    requires forall k :: 0 <= k < |copy| ==> copy[k].CopyOverwrite?
    requires forall k :: 0 <= k < |launch| ==> launch[k].Launch? || launch[k].Log?
    ensures var r := copy + launch;
      && (forall k :: 0 <= k < |r| ==> r[k].CopyOverwrite? || r[k].Launch? || r[k].Log?)
      && ((forall k :: 0 <= k < |r| ==> !r[k].Launch?) <==> (forall k :: 0 <= k < |launch| ==> !launch[k].Launch?))
      && (forall i, j :: 0 <= i < |r| && 0 <= j < |r| && r[i].CopyOverwrite? && r[j].Launch? ==> i < j)
  {
    var r := copy + launch;
    assert forall k :: 0 <= k < |launch| ==> r[|copy| + k] == launch[k];
    assert forall k :: |copy| <= k < |r| ==> r[k] == launch[k - |copy|];
  }

  /** The copy and launch decisions on exit code 0: a copy only on Linux
      and Windows; with `--run`, a launch of the copied binary there, `open`
      of the app bundle on OS X, and a log line anywhere else. */
  function OnBuildSuccess(t: Target, b: Built): (r: seq<Action>)
    ensures forall k :: 0 <= k < |r| ==> r[k].CopyOverwrite? || r[k].Launch? || r[k].Log?
    ensures TargetIs(t, C.Linux) ==> |r| >= 1 && r[0] == CopyOverwrite(
              JoinPath(JoinPath(b.to, b.buildPath), b.solutionName),
              JoinPath(JoinPath(b.from, b.debugDir), b.solutionName))
    ensures !TargetIs(t, C.Linux) && TargetIs(t, C.Windows) ==> |r| >= 1 && r[0] == CopyOverwrite(
              JoinPath(JoinPath(b.to, "Debug"), b.solutionName + ".exe"),
              JoinPath(JoinPath(b.from, b.debugDir), b.solutionName + ".exe"))
    ensures (forall k :: 0 <= k < |r| ==> !r[k].Launch?) <==>
              !b.run || !(TargetIs(t, C.OSX) || TargetIs(t, C.Linux) || TargetIs(t, C.Windows))
    ensures forall i, j :: 0 <= i < |r| && 0 <= j < |r| && r[i].CopyOverwrite? && r[j].Launch? ==> i < j
    ensures !TargetIs(t, C.Linux) && !TargetIs(t, C.Windows) ==> forall k :: 0 <= k < |r| ==> !r[k].CopyOverwrite?
    ensures !b.run ==> forall k :: 0 <= k < |r| ==> r[k].CopyOverwrite?
    ensures b.run && TargetIs(t, C.OSX) ==>
              LastIs(r, Launch("open", ["build/Release/" + b.solutionName + ".app/Contents/MacOS/" + b.solutionName], b.to))
    ensures b.run && !TargetIs(t, C.OSX) && TargetIs(t, C.Linux) ==>
              LastIs(r, Launch(r[0].dest, [], JoinPath(b.from, b.debugDir)))
    ensures b.run && !TargetIs(t, C.OSX) && !TargetIs(t, C.Linux) && TargetIs(t, C.Windows) ==>
              && |r| == 2 && r[1].Launch? && r[0].dest == r[1].command + ".exe"
              && r[1].args == [] && r[1].cwd == JoinPath(b.from, b.debugDir)
    ensures b.run && !TargetIs(t, C.OSX) && !TargetIs(t, C.Linux) && !TargetIs(t, C.Windows) ==>
              r == [Log(Info, "--run not yet implemented for this platform")]
  {
    var copy, launch := Copies(t, b), Launches(t, b);
    CopyThenLaunch(copy, launch);
    assert b.run ==> LastIs(copy + launch, launch[0]);
    assert JoinPath(JoinPath(b.from, b.debugDir), b.solutionName + ".exe")
        == JoinPath(JoinPath(b.from, b.debugDir), b.solutionName) + ".exe";
    copy + launch
  }

  datatype AfterBuild = AfterBuild(actions: seq<Action>, completion: Completion)

  /** The `'close'` handler of the build tool as written: exit code 0 copies
      and maybe launches, but never settles the promise `run` awaits. */
  function AfterBuildAsWritten(t: Target, b: Built, exitCode: int): (r: AfterBuild)
    ensures r.completion == (if exitCode == 0 then NeverSettles else Exited(exitCode))
    ensures exitCode == 0 ==> r.actions == OnBuildSuccess(t, b)
    ensures exitCode != 0 ==> r.actions == [Log(Error, "Compilation failed."), ExitProcess(exitCode)]
    ensures forall k :: 0 <= k < |r.actions| ==> IsBuildStageAction(r.actions[k])
  {
    if exitCode == 0 then AfterBuild(OnBuildSuccess(t, b), NeverSettles)
    else AfterBuild([Log(Error, "Compilation failed."), ExitProcess(exitCode)], Exited(exitCode))
  }

  /** The `'close'` handler with the promise resolved after a successful
      build, so that `run` returns the solution name; a failed build still
      ends the process with the tool's exit code. */
  function AfterBuildCorrected(t: Target, b: Built, exitCode: int): (r: AfterBuild)
    ensures r.completion == (if exitCode == 0 then Returned(b.solutionName) else Exited(exitCode))
    ensures exitCode == 0 ==> r.actions == OnBuildSuccess(t, b)
    ensures exitCode != 0 ==> r.actions == [Log(Error, "Compilation failed."), ExitProcess(exitCode)]
    ensures exitCode == 0 ==> forall k :: 0 <= k < |r.actions| ==> !r.actions[k].ExitProcess?
    ensures forall k :: 0 <= k < |r.actions| ==> IsBuildStageAction(r.actions[k])
  {
    if exitCode == 0 then AfterBuild(OnBuildSuccess(t, b), Returned(b.solutionName))
    else AfterBuild([Log(Error, "Compilation failed."), ExitProcess(exitCode)], Exited(exitCode))
  }

  /** The discrepancy: for every successful build, the handler as written
      leaves `run` pending, while the corrected one returns the name; both
      take the same copy and launch actions. */
  lemma AsWrittenNeverReturns(t: Target, b: Built)
    ensures AfterBuildAsWritten(t, b, 0).completion == NeverSettles
    ensures AfterBuildCorrected(t, b, 0).completion == Returned(b.solutionName)
    ensures AfterBuildAsWritten(t, b, 0).actions == AfterBuildCorrected(t, b, 0).actions
  {
  }

  /** Which `'close'` handler the build stage runs: the one in the source,
      or the one that resolves the promise after a successful build. */
  datatype Handler = AsWritten | Corrected

  function AfterBuildBy(h: Handler, t: Target, b: Built, exitCode: int): (r: AfterBuild)
    ensures r.completion == (if exitCode != 0 then Exited(exitCode)
                             else if h == AsWritten then NeverSettles else Returned(b.solutionName))
    ensures exitCode == 0 ==> r.actions == OnBuildSuccess(t, b)
    ensures exitCode != 0 ==> r.actions == [Log(Error, "Compilation failed."), ExitProcess(exitCode)]
    ensures forall k :: 0 <= k < |r.actions| ==> IsBuildStageAction(r.actions[k])
  {
    if h == AsWritten then AfterBuildAsWritten(t, b, exitCode) else AfterBuildCorrected(t, b, exitCode)
  }

  /** The handler decides only whether the promise settles: the actions of
      both handlers agree on every exit code. */
  lemma HandlersTakeSameActions(t: Target, b: Built, exitCode: int)
    ensures AfterBuildBy(AsWritten, t, b, exitCode).actions == AfterBuildBy(Corrected, t, b, exitCode).actions
  {
  }

  datatype BuildStage = BuildStage(actions: seq<Action>, completion: Completion)

  /** What the `'close'` handler does, whichever handler it is: the copy and
      launch on exit code 0, the failure log and the exit otherwise. */
  function SuccessOrFailure(t: Target, b: Built, exitCode: int): seq<Action>
  {
    if exitCode == 0 then OnBuildSuccess(t, b) else [Log(Error, "Compilation failed."), ExitProcess(exitCode)]
  }

  /** From the spawn on: the tool's output as log lines, then the
      `'close'` handler's actions. */
  function AfterSpawn(h: Handler, t: Target, b: Built, tool: ToolRun): (r: BuildStage)
    ensures r.completion == (if tool.exitCode != 0 then Exited(tool.exitCode)
                             else if h == AsWritten then NeverSettles else Returned(b.solutionName))
    ensures r.completion.Exited? ==> LastIs(r.actions, ExitProcess(tool.exitCode))
    ensures r.actions == BuildOutputLogs(tool.output) + SuccessOrFailure(t, b, tool.exitCode)
    ensures forall k :: 0 <= k < |r.actions| ==> IsBuildStageAction(r.actions[k])
  {
    var after := AfterBuildBy(h, t, b, tool.exitCode);
    var logs := BuildOutputLogs(tool.output);
    BuildStageActions(logs, after.actions);
    BuildStage(logs + after.actions, after.completion)
  }

  /** The build stage of `run` once the export produced a non-empty name and
      compilation was requested, with the `'close'` handler `h`. */
  function RunBuild(h: Handler, t: Target, b: Built, env: map<string, string>, tool: ToolRun): (r: BuildStage)
    ensures |r.actions| >= 1 && r.actions[0] == Log(Info, "Compiling...")
    ensures !StartBuild(t, b.to, b.buildPath, b.solutionName, env).spawned ==>
              r.completion == Returned(b.solutionName)
              && LastIs(r.actions, Log(Info, "--compile not yet implemented for this platform"))
    ensures StartBuild(t, b.to, b.buildPath, b.solutionName, env).spawned ==>
              r.completion == (if tool.exitCode != 0 then Exited(tool.exitCode)
                               else if h == AsWritten then NeverSettles else Returned(b.solutionName))
    ensures r.completion.Exited? ==> LastIs(r.actions, ExitProcess(tool.exitCode))
    ensures var start := StartBuild(t, b.to, b.buildPath, b.solutionName, env);
      r.actions == [Log(Info, "Compiling...")] + start.actions
                   + if start.spawned then BuildOutputLogs(tool.output) + SuccessOrFailure(t, b, tool.exitCode)
                     else [Log(Info, "--compile not yet implemented for this platform")]
    ensures forall k :: 0 <= k < |r.actions| ==> IsBuildStageAction(r.actions[k])
  {
    var start := StartBuild(t, b.to, b.buildPath, b.solutionName, env);
    var head := [Log(Info, "Compiling...")] + start.actions;
    BuildStageActions([Log(Info, "Compiling...")], start.actions);
    var tail := if start.spawned then AfterSpawn(h, t, b, tool)
                else BuildStage([Log(Info, "--compile not yet implemented for this platform")], Returned(b.solutionName));
    BuildStageActions(head, tail.actions);
    BuildStage(head + tail.actions, tail.completion)
  }

  /** How the build stage ends: it stays pending exactly when the handler as
      written sees a spawned tool succeed, and it exits exactly when a spawned
      tool fails. */
  lemma RunBuildEnds(h: Handler, t: Target, b: Built, env: map<string, string>, tool: ToolRun)
    ensures var spawned := StartBuild(t, b.to, b.buildPath, b.solutionName, env).spawned;
      var r := RunBuild(h, t, b, env, tool);
      && (r.completion == NeverSettles <==> h == AsWritten && spawned && tool.exitCode == 0)
      && (r.completion.Exited? <==> spawned && tool.exitCode != 0)
  {
  }

  /** The build stage's actions do not depend on the handler. */
  lemma RunBuildHandlers(t: Target, b: Built, env: map<string, string>, tool: ToolRun)
    ensures RunBuild(AsWritten, t, b, env, tool).actions == RunBuild(Corrected, t, b, env, tool).actions
  {
    HandlersTakeSameActions(t, b, tool.exitCode);
  }

  /** On Windows without a Visual Studio installation the stage only logs:
      "Compiling...", the missing installation, the missing build path; it
      returns the name. */
  lemma RunBuildWithoutVisualStudio(h: Handler, t: Target, b: Built, env: map<string, string>, tool: ToolRun)
    requires !TargetIs(t, C.Linux) && !TargetIs(t, C.OSX) && TargetIs(t, C.Windows) && VsVars(env).None?
    ensures RunBuild(h, t, b, env, tool) == BuildStage(
              [Log(Info, "Compiling..."), Log(Error, "Visual Studio not found."),
               Log(Info, "--compile not yet implemented for this platform")],
              Returned(b.solutionName))
  {
  }

  /** After a spawned tool exits with 0 the stage ends with the copy and
      launch decisions; on Linux the stage holds the copy of the binary. */
  lemma RunBuildSuccessEnds(h: Handler, t: Target, b: Built, env: map<string, string>, tool: ToolRun)
    requires StartBuild(t, b.to, b.buildPath, b.solutionName, env).spawned && tool.exitCode == 0
    ensures EndsWithActions(RunBuild(h, t, b, env, tool).actions, OnBuildSuccess(t, b))
    ensures TargetIs(t, C.Linux) ==>
              CopyOverwrite(JoinPath(JoinPath(b.to, b.buildPath), b.solutionName),
                            JoinPath(JoinPath(b.from, b.debugDir), b.solutionName)) in RunBuild(h, t, b, env, tool).actions
  {
    var start := StartBuild(t, b.to, b.buildPath, b.solutionName, env);
    var front := [Log(Info, "Compiling...")] + start.actions + BuildOutputLogs(tool.output);
    var succ := OnBuildSuccess(t, b);
    assert RunBuild(h, t, b, env, tool).actions == front + succ;
    EndsOfJoin(front, succ, succ, front + succ);
  }

  /** What ends `b` also ends `a + b`, and what `b` holds `a + b` holds. */
  lemma EndsOfJoin(a: seq<Action>, b: seq<Action>, c: seq<Action>, joined: seq<Action>)
    requires joined == a + b
    requires EndsWithActions(b, c)
    ensures EndsWithActions(joined, c)
    ensures forall x :: x in b ==> x in joined
  {
    assert joined[|joined| - |c|..] == b[|b| - |c|..];
  }

  /** Joining two runs of build-stage actions; the first action comes from
      the first run and the last from the second when it is not empty. */
  lemma BuildStageActions(a: seq<Action>, b: seq<Action>)
    requires forall k :: 0 <= k < |a| ==> IsBuildStageAction(a[k])
    requires forall k :: 0 <= k < |b| ==> IsBuildStageAction(b[k])
    ensures forall k :: 0 <= k < |a + b| ==> IsBuildStageAction((a + b)[k])
    ensures |a| >= 1 ==> (a + b)[0] == a[0]
    ensures |b| >= 1 ==> LastIs(a + b, b[|b| - 1])
  {
    assert forall k :: |a| <= k < |a + b| ==> (a + b)[k] == b[k - |a|];
  }
}

=== FILE: catalogue.dfy ===
/** The platform catalogue: which platform identifiers the orchestrator knows,
    their display names, and the shader dialect each platform compiles to for
    the selected graphics API (src/main.ts:22-115).

    Platforms and graphics APIs travel through the program as strings and are
    compared against the `Platform` and `GraphicsApi` constant tables; those
    tables are modelled here by `Id`/`ParsePlatform` and `ApiId`/`ParseApi`. */
module Catalogue {
  import opened Results

  datatype Platform =
    | Windows | WindowsApp | PlayStation3 | IOS | OSX | Android
    | Xbox360 | Linux | HTML5 | Tizen | Pi | TvOS

  datatype GraphicsApi =
    | Default | OpenGL | OpenGL2 | Direct3D9 | Direct3D11 | Direct3D12 | Metal | Vulkan

  /** The identifier string of each `Platform` constant. */
  function Id(p: Platform): string
  {
    match p
    case Windows => "windows"
    case WindowsApp => "windowsapp"
    case PlayStation3 => "ps3"
    case IOS => "ios"
    case OSX => "osx"
    case Android => "android"
    case Xbox360 => "xbox360"
    case Linux => "linux"
    case HTML5 => "html5"
    case Tizen => "tizen"
    case Pi => "pi"
    case TvOS => "tvos"
  }

  /** Comparing a string against every `Platform` constant: the platform it
      equals, if any. */
  function ParsePlatform(s: string): (r: Option<Platform>)
    ensures r.Some? ==> Id(r.value) == s
    ensures r.None? ==> forall p :: Id(p) != s
  {
    if s == "windows" then Some(Windows)
    else if s == "windowsapp" then Some(WindowsApp)
    else if s == "ps3" then Some(PlayStation3)
    else if s == "ios" then Some(IOS)
    else if s == "osx" then Some(OSX)
    else if s == "android" then Some(Android)
    else if s == "xbox360" then Some(Xbox360)
    else if s == "linux" then Some(Linux)
    else if s == "html5" then Some(HTML5)
    else if s == "tizen" then Some(Tizen)
    else if s == "pi" then Some(Pi)
    else if s == "tvos" then Some(TvOS)
    else None
  }

  /** A string names a member of the platform table. */
  predicate IsKnownPlatform(s: string)
  {
    ParsePlatform(s).Some?
  }

  /** The identifiers are pairwise distinct, so parsing recovers the platform. */
  lemma PlatformRoundTrip(p: Platform)
    ensures ParsePlatform(Id(p)) == Some(p)
  {
  }

  /** The identifier string of each `GraphicsApi` constant. */
  function ApiId(a: GraphicsApi): string
  {
    match a
    case Default => "default"
    case OpenGL => "opengl"
    case OpenGL2 => "opengl2"
    case Direct3D9 => "direct3d9"
    case Direct3D11 => "direct3d11"
    case Direct3D12 => "direct3d12"
    case Metal => "metal"
    case Vulkan => "vulkan"
  }

  function ParseApi(s: string): (r: Option<GraphicsApi>)
    ensures r.Some? ==> ApiId(r.value) == s
    ensures r.None? ==> forall a :: ApiId(a) != s
  {
    if s == "default" then Some(Default)
    else if s == "opengl" then Some(OpenGL)
    else if s == "opengl2" then Some(OpenGL2)
    else if s == "direct3d9" then Some(Direct3D9)
    else if s == "direct3d11" then Some(Direct3D11)
    else if s == "direct3d12" then Some(Direct3D12)
    else if s == "metal" then Some(Metal)
    else if s == "vulkan" then Some(Vulkan)
    else None
  }

  /** The display name of each known platform. */
  function DisplayName(p: Platform): string
  {
    match p
    case Windows => "Windows"
    case WindowsApp => "Windows App"
    case PlayStation3 => "PlayStation 3"
    case IOS => "iOS"
    case OSX => "OS X"
    case Android => "Android"
    case Xbox360 => "Xbox 360"
    case Linux => "Linux"
    case HTML5 => "HTML5"
    case Tizen => "Tizen"
    case Pi => "Pi"
    case TvOS => "tvOS"
  }

  /** `fromPlatform`: total; a known identifier gets its platform's display
      name, anything else gets "unknown". */
  function FromPlatform(platform: string): (r: string)
    ensures r != "unknown" <==> IsKnownPlatform(platform)
    ensures forall p :: platform == Id(p) ==> r == DisplayName(p)
  {
    match ParsePlatform(platform)
    case Some(p) => DisplayName(p)
    case None => "unknown"
  }

  /** Distinct known platforms have distinct display names. */
  lemma DisplayNamesDistinct(p: Platform, q: Platform)
    requires p != q
    ensures FromPlatform(Id(p)) != FromPlatform(Id(q))
  {
  }

  /** Every dialect a known platform can compile its shaders to. */
  const Dialects: set<string> := {"glsl", "essl", "d3d9", "d3d11", "spirv", "metal"}

  /** `shaderLang`, with the globally selected graphics API passed as `api`. */
  function ShaderLang(platform: string, api: string): (r: string)
    ensures !IsKnownPlatform(platform) ==> r == platform
    ensures IsKnownPlatform(platform) ==> r in Dialects
  {
    match ParsePlatform(platform)
    case None => platform
    case Some(Windows) =>
      (match ParseApi(api)
       case Some(OpenGL) => "glsl"
       case Some(OpenGL2) => "glsl"
       case Some(Direct3D9) => "d3d9"
       case Some(Direct3D11) => "d3d11"
       case Some(Direct3D12) => "d3d11"
       case Some(Vulkan) => "spirv"
       case _ => "d3d9")
    case Some(WindowsApp) => "d3d11"
    case Some(PlayStation3) => "d3d9"
    case Some(IOS) => if ParseApi(api) == Some(Metal) then "metal" else "essl"
    case Some(TvOS) => if ParseApi(api) == Some(Metal) then "metal" else "essl"
    case Some(OSX) => if ParseApi(api) == Some(Metal) then "metal" else "glsl"
    case Some(Android) => if ParseApi(api) == Some(Vulkan) then "spirv" else "essl"
    case Some(Xbox360) => "d3d9"
    case Some(Linux) => if ParseApi(api) == Some(Vulkan) then "spirv" else "glsl"
    case Some(HTML5) => "essl"
    case Some(Tizen) => "essl"
    case Some(Pi) => "essl"
  }

  /** On Windows the two modern Direct3D APIs share the d3d11 dialect, the
      OpenGL family gives glsl, Vulkan gives spirv, and every other API string
      (including the default and unlisted ones) falls back to d3d9. */
  lemma WindowsDialect(api: string)
    ensures ShaderLang(Id(Windows), api) == "d3d11"
      <==> ParseApi(api) == Some(Direct3D11) || ParseApi(api) == Some(Direct3D12)
    ensures ShaderLang(Id(Windows), api) == "glsl"
      <==> ParseApi(api) == Some(OpenGL) || ParseApi(api) == Some(OpenGL2)
    ensures ShaderLang(Id(Windows), api) == "spirv" <==> ParseApi(api) == Some(Vulkan)
    ensures ShaderLang(Id(Windows), api) == "d3d9"
      <==> !(ParseApi(api) in {Some(Direct3D11), Some(Direct3D12), Some(OpenGL), Some(OpenGL2), Some(Vulkan)})
  {
  }

  /** Platforms with a single backend ignore the API. */
  predicate SingleBackend(p: Platform)
  {
    p in {WindowsApp, PlayStation3, Xbox360, HTML5, Tizen, Pi}
  }

  lemma SingleBackendIgnoresApi(p: Platform, api1: string, api2: string)
    requires SingleBackend(p)
    ensures ShaderLang(Id(p), api1) == ShaderLang(Id(p), api2)
  {
  }

  /** The Apple platforms give metal exactly when Metal is selected. */
  lemma MetalOnlyForMetal(p: Platform, api: string)
    requires p in {IOS, TvOS, OSX}
    ensures ShaderLang(Id(p), api) == "metal" <==> ParseApi(api) == Some(Metal)
  {
  }

  /** Android and Linux give spirv exactly when Vulkan is selected, and so does Windows. */
  lemma SpirvOnlyForVulkan(p: Platform, api: string)
    requires p in {Android, Linux, Windows}
    ensures ShaderLang(Id(p), api) == "spirv" <==> ParseApi(api) == Some(Vulkan)
  {
  }
}

=== FILE: exporters.dfy ===
/** Exporter selection in `exportKoremakeProject` (src/main.ts:238-277): a
    fixed table for six platforms, the Visual Studio exporter for every other
    member of the platform table, and for an unknown platform a scan of the
    project's `Backends` directory for a plugin module. */
module Exporters {
  import opened Results
  import opened Strings
  import opened Search
  import opened FileTree
  import C = Catalogue

  datatype Exporter =
    | XCode | Android | Emscripten | Linux | Tizen | VisualStudio
    | Plugin(dir: string, file: string)   // `Backends/<dir>/<file>`, loaded with `require`

  /** The exporter of a member of the platform table. */
  function Builtin(p: C.Platform): (r: Exporter)
    ensures !r.Plugin?
  {
    match p
    case IOS => XCode
    case OSX => XCode
    case TvOS => XCode
    case Android => Android
    case HTML5 => Emscripten
    case Linux => Linux
    case Pi => Linux
    case Tizen => Tizen
    case _ => VisualStudio
  }

  /** The members outside the fixed table are exactly the Windows-family and
      console platforms, and they all get the Visual Studio exporter. */
  lemma VisualStudioFallback(p: C.Platform)
    ensures Builtin(p) == VisualStudio <==> p in {C.Windows, C.WindowsApp, C.PlayStation3, C.Xbox360}
  {
  }

  /** The fixed table: each built-in exporter other than Visual Studio
      serves exactly these platforms. */
  lemma FixedExporterTable(p: C.Platform)
    ensures Builtin(p) == XCode <==> p in {C.IOS, C.OSX, C.TvOS}
    ensures Builtin(p) == Android <==> p == C.Android
    ensures Builtin(p) == Emscripten <==> p == C.HTML5
    ensures Builtin(p) == Linux <==> p in {C.Linux, C.Pi}
    ensures Builtin(p) == Tizen <==> p == C.Tizen
  {
  }

  /** A plugin module name: `Exporter*.js`. */
  predicate IsPluginFile(f: string)
  {
    StartsWith(f, "Exporter") && EndsWith(f, ".js")
  }

  /** A `Backends` entry that is a directory listing at least one plugin module. */
  predicate HasPlugin(e: DirEntry)
  {
    e.isDir && FirstWhere(e.files, IsPluginFile) >= 0
  }

  /** The plugin a directory contributes: its first plugin module. */
  function PluginOf(e: DirEntry): (r: Exporter)
    requires HasPlugin(e)
    ensures r.Plugin? && r.dir == e.name && r.file in e.files && IsPluginFile(r.file)
  {
    Plugin(e.name, e.files[FirstWhere(e.files, IsPluginFile)])
  }

  /** The outcome of the plugin scan. The `break` leaves only the inner loop,
      so every directory with a plugin overwrites the choice: the last such
      directory wins, with its first plugin module. */
  function ScanPlugins(entries: seq<DirEntry>): (r: Option<Exporter>)
    ensures r.None? <==> forall k :: 0 <= k < |entries| ==> !HasPlugin(entries[k])
    ensures forall k :: 0 <= k < |entries| && HasPlugin(entries[k])
              && (forall j :: k < j < |entries| ==> !HasPlugin(entries[j]))
              ==> r == Some(PluginOf(entries[k]))
  {
    var k := LastWhere(entries, HasPlugin);
    if k < 0 then None else Some(PluginOf(entries[k]))
  }

  /** The scan written as the source's nested loops with the inner `break`;
      it agrees with `ScanPlugins`. */
  method ScanPluginDirs(entries: seq<DirEntry>) returns (exporter: Option<Exporter>)
    ensures exporter == ScanPlugins(entries)
  {
    exporter := None;
    for i := 0 to |entries|
      invariant exporter.None? <==> LastWhere(entries[..i], HasPlugin) < 0
      invariant exporter.Some? ==> exporter == Some(PluginOf(entries[LastWhere(entries[..i], HasPlugin)]))
    {
      assert entries[..i + 1][..i] == entries[..i];
      var libdir := entries[i];
      if libdir.isDir {
        var libfiles := libdir.files;
        var j := 0;
        while j < |libfiles|
          invariant 0 <= j <= |libfiles|
          invariant forall m :: 0 <= m < j ==> !IsPluginFile(libfiles[m])
        {
          if IsPluginFile(libfiles[j]) {
            exporter := Some(Plugin(libdir.name, libfiles[j]));
            break;
          }
          j := j + 1;
        }
      }
    }
    assert entries[..|entries|] == entries;
  }

  /** The exporter for a platform, or none (the caller then fails with
      `NoExporterMessage`). `Backends` is scanned only when it is a directory. */
  function SelectExporter(platform: string, backends: Backends): (r: Option<Exporter>)
    ensures C.IsKnownPlatform(platform) ==> r.Some? && !r.value.Plugin?
    ensures forall p :: platform == C.Id(p) ==> r == Some(Builtin(p))
    ensures !C.IsKnownPlatform(platform) ==> (r.Some? ==> r.value.Plugin?)
    ensures !C.IsKnownPlatform(platform) && !backends.Listing? ==> r.None?
    ensures !C.IsKnownPlatform(platform) && backends.Listing? ==> r == ScanPlugins(backends.entries)
  {
    match C.ParsePlatform(platform)
    case Some(p) => Some(Builtin(p))
    case None =>
      if backends.Listing? then ScanPlugins(backends.entries) else None
  }

  function NoExporterMessage(platform: string): string
  {
    "No exporter found for platform " + platform + "."
  }
}

=== FILE: pipeline.dfy ===
/** The whole of `run` (src/main.ts:337-406) with `exportProject` and
    `exportKoremakeProject` (src/main.ts:196-295): check for the project
    descriptor, load the project, compile the shaders one after another,
    select and invoke the exporter, then optionally build.

    Everything the run learns from outside (the options, the ambient graphics
    API, the engine root, the project loader's outcome, the `Backends`
    listing, how each child process behaves, the environment) is part of a
    `World`; everything it does is an `Action` in the trace. */
module Pipeline {
  import opened Results
  import opened Strings
  import opened FileTree
  import opened Actions
  import C = Catalogue
  import SC = ShaderCompiler
  import SJ = ShaderJobs
  import E = Exporters
  import B = Build

  datatype Options = Options(
    from: string, to: string, target: string,
    customBase: Option<string>,   // `options.customTarget.baseTarget`, when there is a custom target
    debug: bool, noshaders: bool, compile: bool, run: bool,
    graphics: Option<string>)     // `options.graphics`, when given

  /** What the project loader reports: a name, the flattened file list, and
      the debug output directory. */
  datatype Project = Project(name: string, files: seq<string>, debugDir: string)

  datatype ProjectLoad = Loaded(project: Project) | LoadFailed(error: string)

  datatype World = World(
    options: Options,
    graphicsApi: string,          // `Options.graphicsApi` before the run
    koreDir: string,
    sys: string,
    hasKorefile: bool,
    project: ProjectLoad,
    backends: Backends,
    shaderRun: nat -> ToolRun,    // how the compiler behaves on the n-th shader job (from 0)
    exportError: Option<string>,  // a synchronous failure of `exportSolution`
    env: map<string, string>,
    buildRun: ToolRun)

  /** The graphics API in force: `options.graphics` overrides the ambient one. */
  function Api(w: World): string
  {
    match w.options.graphics
    case Some(api) => api
    case None => w.graphicsApi
  }

  function Setup(w: World): SC.Setup
  {
    SC.Setup(w.options.from, w.koreDir, w.sys, w.backends, w.options.debug)
  }

  function Jobs(w: World, p: Project): seq<SJ.ShaderJob>
  {
    SJ.ShaderJobs(p.files, w.options.noshaders, w.options.target,
                  C.ShaderLang(w.options.target, Api(w)), p.debugDir)
  }

  function Compile(s: SC.Setup, job: SJ.ShaderJob, run: ToolRun): SC.Compilation
  {
    SC.CompileShader(s, job.dialect, job.source, job.Dest(), job.temp, job.platform, run)
  }

  /** Actions of the shader stage: log lines and compiler spawns only, the
      same kinds as within one compilation. */
  predicate ShaderStageActions(actions: seq<Action>)
  {
    SC.CompilationActions(actions)
  }

  datatype ShaderStage = ShaderStage(actions: seq<Action>, outcome: Outcome<SC.CompileError>)

  /** The shader loop from job `k` on: each job is announced, then compiled
      to completion; the first failure ends the loop. */
  function RunShaders(s: SC.Setup, jobs: seq<SJ.ShaderJob>, runs: nat -> ToolRun, k: nat): (r: ShaderStage)
    requires k <= |jobs|
    ensures ShaderStageActions(r.actions)
    ensures k < |jobs| ==> |r.actions| >= 1 && r.actions[0] == Log(Info, SJ.ProgressMessage(jobs[k]))
    decreases |jobs| - k
  {
    if k == |jobs| then ShaderStage([], Pass)
    else
      var c := Compile(s, jobs[k], runs(k));
      var head := [Log(Info, SJ.ProgressMessage(jobs[k]))] + c.actions;
      StageJoin([Log(Info, SJ.ProgressMessage(jobs[k]))], c.actions);
      if c.outcome.Fail? then ShaderStage(head, c.outcome)
      else
        var rest := RunShaders(s, jobs, runs, k + 1);
        StageJoin(head, rest.actions);
        ShaderStage(head + rest.actions, rest.outcome)
  }

  /** The stage passes exactly when every job from `k` on compiles. */
  lemma {:induction false} RunShadersPass(s: SC.Setup, jobs: seq<SJ.ShaderJob>, runs: nat -> ToolRun, k: nat)
    requires k <= |jobs|
    ensures RunShaders(s, jobs, runs, k).outcome == Pass
            <==> forall i :: k <= i < |jobs| ==> Compile(s, jobs[i], runs(i)).outcome == Pass
    decreases |jobs| - k
  {
    if k < |jobs| {
      RunShadersStep(s, jobs, runs, k);
      var c := Compile(s, jobs[k], runs(k));
      if c.outcome.Pass? {
        RunShadersPass(s, jobs, runs, k + 1);
        if forall i :: k + 1 <= i < |jobs| ==> Compile(s, jobs[i], runs(i)).outcome == Pass {
          forall i | k <= i < |jobs| ensures Compile(s, jobs[i], runs(i)).outcome == Pass {
          }
        }
      }
    }
  }

  /** One job of the loop: a failure ends the stage with that outcome,
      a success leaves the outcome to the remaining jobs. */
  lemma RunShadersStep(s: SC.Setup, jobs: seq<SJ.ShaderJob>, runs: nat -> ToolRun, k: nat)
    requires k < |jobs|
    ensures RunShaders(s, jobs, runs, k).outcome ==
      if Compile(s, jobs[k], runs(k)).outcome.Fail? then Compile(s, jobs[k], runs(k)).outcome
      else RunShaders(s, jobs, runs, k + 1).outcome
  {
  }

  /** Shader-stage actions joined stay shader-stage actions, and the first
      comes from the first run. */
  lemma StageJoin(a: seq<Action>, b: seq<Action>)
    requires ShaderStageActions(a) && ShaderStageActions(b)
    ensures ShaderStageActions(a + b)
    ensures |a| >= 1 ==> (a + b)[0] == a[0]
  {
    assert forall k :: |a| <= k < |a + b| ==> (a + b)[k] == b[k - |a|];
  }

  datatype RunResult = RunResult(trace: seq<Action>, completion: Completion)

  predicate HasExport(trace: seq<Action>)
  {
    exists k :: 0 <= k < |trace| && trace[k].Export?
  }

  /** The log lines `exportKoremakeProject` starts with. */
  function Intro(target: string): seq<Action>
  {
    [Log(Info, "korefile found."), Log(Info, "Creating " + C.FromPlatform(target) + " project files.")]
  }

  /** `run`, with the build stage's `'close'` handler `h`. */
  function Run(h: B.Handler, w: World): (r: RunResult)
    ensures !w.hasKorefile ==> r.trace == [Log(Error, "korefile.js not found.")] && r.completion == Returned("")
    ensures w.hasKorefile && w.project.LoadFailed? ==>
              && r.completion == Returned("")
              && r.trace == Intro(w.options.target) + [Log(Error, w.project.error), Log(Error, w.project.error)]
    ensures r.completion == NeverSettles ==> h == B.AsWritten && w.options.compile && w.buildRun.exitCode == 0
    ensures r.completion.Returned? && r.completion.name != "" ==>
              && w.hasKorefile && w.project.Loaded? && r.completion.name == w.project.project.name
              && HasExport(r.trace)
    ensures r.completion.Exited? ==>
              && w.hasKorefile && w.project.Loaded? && HasExport(r.trace)
              && w.options.compile && w.buildRun.exitCode != 0 && r.completion.code == w.buildRun.exitCode
              && LastIs(r.trace, ExitProcess(w.buildRun.exitCode))
  {
    if !w.hasKorefile then RunResult([Log(Error, "korefile.js not found.")], Returned(""))
    else
      match w.project
      case LoadFailed(e) => RunResult(Intro(w.options.target) + [Log(Error, e), Log(Error, e)], Returned(""))
      case Loaded(p) => ProjectStages(h, w, p)
  }

  /** From the destination directory on: shaders, then export and build. */
  function ProjectStages(h: B.Handler, w: World, p: Project): (r: RunResult)
    ensures r.completion == NeverSettles ==> h == B.AsWritten && w.options.compile && w.buildRun.exitCode == 0
    ensures r.completion.Returned? && r.completion.name != "" ==> r.completion.name == p.name && HasExport(r.trace)
    ensures r.completion.Exited? ==>
              && HasExport(r.trace)
              && w.options.compile && w.buildRun.exitCode != 0 && r.completion.code == w.buildRun.exitCode
              && LastIs(r.trace, ExitProcess(w.buildRun.exitCode))
  {
    var shaders := RunShaders(Setup(w), Jobs(w, p), w.shaderRun, 0);
    var pre := Intro(w.options.target) + [EnsureDir(w.options.to)] + shaders.actions;
    if shaders.outcome.Fail? then
      RunResult(pre + [Log(Error, SC.ErrorMessage(shaders.outcome.error))], Returned(""))
    else ExportAndBuild(h, w, p, pre)
  }

  /** Exporter selection and invocation, then the optional build. */
  function ExportAndBuild(h: B.Handler, w: World, p: Project, pre: seq<Action>): (r: RunResult)
    ensures r.completion == NeverSettles ==> h == B.AsWritten && w.options.compile && w.buildRun.exitCode == 0
    ensures r.completion.Returned? && r.completion.name != "" ==> r.completion.name == p.name && HasExport(r.trace)
    ensures r.completion.Exited? ==>
              && HasExport(r.trace)
              && w.options.compile && w.buildRun.exitCode != 0 && r.completion.code == w.buildRun.exitCode
              && LastIs(r.trace, ExitProcess(w.buildRun.exitCode))
  {
    var o := w.options;
    match E.SelectExporter(o.target, w.backends)
    case None => RunResult(pre + [Log(Error, E.NoExporterMessage(o.target))], Returned(""))
    case Some(exporter) =>
      var exported := pre + [Export(exporter, o.from, o.to, o.target)];
      assert exported[|pre|].Export?;
      if w.exportError.Some? then
        RunResult(exported + [Log(Error, w.exportError.value)], Returned(""))
      else if o.compile && p.name != "" then
        var b := BuildStage(h, w, p);
        assert (exported + b.actions)[|pre|].Export?;
        RunResult(exported + b.actions, b.completion)
      else RunResult(exported, Returned(p.name))
  }

  function BuildStage(h: B.Handler, w: World, p: Project): B.BuildStage
  {
    var o := w.options;
    B.RunBuild(h, B.Target(o.target, o.customBase),
               B.Built(o.from, o.to, B.BuildPath(o.debug), p.debugDir, p.name, o.run),
               w.env, w.buildRun)
  }

  /** Jobs after the first failing one have no influence: they are neither
      announced nor compiled, and the stage fails with that job's error. */
  lemma {:induction false} StopsAtFirstFailure(s: SC.Setup, jobs: seq<SJ.ShaderJob>, runs: nat -> ToolRun, k: nat, i: nat)
    requires k <= i < |jobs|
    requires Compile(s, jobs[i], runs(i)).outcome.Fail?
    requires forall j :: k <= j < i ==> Compile(s, jobs[j], runs(j)).outcome == Pass
    ensures RunShaders(s, jobs, runs, k) == RunShaders(s, jobs[..i + 1], runs, k)
    ensures RunShaders(s, jobs, runs, k).outcome == Compile(s, jobs[i], runs(i)).outcome
    decreases i - k
  {
    var prefix := jobs[..i + 1];
    assert prefix[k] == jobs[k];
    var c := Compile(s, jobs[k], runs(k));
    var head := [Log(Info, SJ.ProgressMessage(jobs[k]))] + c.actions;
    RunShadersUnfold(s, jobs, runs, k);
    RunShadersUnfold(s, prefix, runs, k);
    if k < i {
      StopsAtFirstFailure(s, jobs, runs, k + 1, i);
      assert c.outcome == Pass;
    } else {
      assert c.outcome.Fail?;
    }
  }

  /** One job of the loop, both actions and outcome: the job's announcement
      and compilation, then either its failure or the remaining jobs. */
  lemma RunShadersUnfold(s: SC.Setup, jobs: seq<SJ.ShaderJob>, runs: nat -> ToolRun, k: nat)
    requires k < |jobs|
    ensures var c := Compile(s, jobs[k], runs(k));
      var head := [Log(Info, SJ.ProgressMessage(jobs[k]))] + c.actions;
      RunShaders(s, jobs, runs, k) ==
        if c.outcome.Fail? then ShaderStage(head, c.outcome)
        else ShaderStage(head + RunShaders(s, jobs, runs, k + 1).actions, RunShaders(s, jobs, runs, k + 1).outcome)
  {
  }

  /** Shader-stage actions, then at most one export, then build-stage
      actions: every spawn precedes the export, and there is one export. */
  predicate ExportLast(t: seq<Action>)
  {
    && (forall a, b :: 0 <= a < |t| && 0 <= b < |t| && t[a].RunShaderCompiler? && t[b].Export? ==> a < b)
    && (forall a, b :: 0 <= a < |t| && 0 <= b < |t| && t[a].Export? && t[b].Export? ==> a == b)
  }

  lemma StagedTrace(pre: seq<Action>, mid: seq<Action>, tail: seq<Action>)
    requires forall a :: 0 <= a < |pre| ==> !pre[a].Export?
    requires mid == [] || (|mid| == 1 && mid[0].Export?)
    requires forall a :: 0 <= a < |tail| ==> IsBuildStageAction(tail[a])
    ensures ExportLast(pre + mid + tail)
  {
    var t := pre + mid + tail;
    assert forall a :: 0 <= a < |pre| ==> t[a] == pre[a];
    assert forall a :: |pre| + |mid| <= a < |t| ==> t[a] == tail[a - |pre| - |mid|];
  }

  lemma ExportAndBuildOrdered(h: B.Handler, w: World, p: Project, pre: seq<Action>)
    requires forall a :: 0 <= a < |pre| ==> !pre[a].Export?
    ensures ExportLast(ExportAndBuild(h, w, p, pre).trace)
  {
    var o := w.options;
    match E.SelectExporter(o.target, w.backends)
    case None =>
      StagedTrace(pre, [], [Log(Error, E.NoExporterMessage(o.target))]);
      assert ExportAndBuild(h, w, p, pre).trace == pre + [] + [Log(Error, E.NoExporterMessage(o.target))];
    case Some(exporter) =>
      var mid := [Export(exporter, o.from, o.to, o.target)];
      if w.exportError.Some? {
        StagedTrace(pre, mid, [Log(Error, w.exportError.value)]);
        assert ExportAndBuild(h, w, p, pre).trace == pre + mid + [Log(Error, w.exportError.value)];
      } else if o.compile && p.name != "" {
        var b := BuildStage(h, w, p);
        StagedTrace(pre, mid, b.actions);
        assert ExportAndBuild(h, w, p, pre).trace == pre + mid + b.actions;
      } else {
        StagedTrace(pre, mid, []);
        assert ExportAndBuild(h, w, p, pre).trace == pre + mid + [];
      }
  }

  /** Before the export: two log lines, the directory, the shader stage. */
  lemma PreExportActions(target: string, to: string, shaderActions: seq<Action>)
    requires ShaderStageActions(shaderActions)
    ensures var pre := Intro(target) + [EnsureDir(to)] + shaderActions;
      forall a :: 0 <= a < |pre| ==> !pre[a].Export? && !pre[a].SpawnBuild?
  {
    var intro := Intro(target);
    var pre := intro + [EnsureDir(to)] + shaderActions;
    forall a | 0 <= a < |pre| ensures !pre[a].Export? && !pre[a].SpawnBuild? {
      if a >= |intro| + 1 {
        assert pre[a] == shaderActions[a - |intro| - 1];
      }
    }
  }

  /** A trace without an export, closed by an error line. */
  lemma NoExportThenLog(pre: seq<Action>, msg: string)
    requires forall a :: 0 <= a < |pre| ==> !pre[a].Export?
    ensures ExportLast(pre + [Log(Error, msg)])
    ensures !HasExport(pre + [Log(Error, msg)])
    ensures LastIs(pre + [Log(Error, msg)], Log(Error, msg))
  {
    StagedTrace(pre, [], [Log(Error, msg)]);
    assert pre + [] + [Log(Error, msg)] == pre + [Log(Error, msg)];
    var t := pre + [Log(Error, msg)];
    assert forall a :: 0 <= a < |pre| ==> t[a] == pre[a];
  }

  lemma ProjectStagesOrdered(h: B.Handler, w: World, p: Project)
    ensures ExportLast(ProjectStages(h, w, p).trace)
  {
    var shaders := RunShaders(Setup(w), Jobs(w, p), w.shaderRun, 0);
    var pre := Intro(w.options.target) + [EnsureDir(w.options.to)] + shaders.actions;
    PreExportActions(w.options.target, w.options.to, shaders.actions);
    if shaders.outcome.Fail? {
      var msg := SC.ErrorMessage(shaders.outcome.error);
      assert ProjectStages(h, w, p).trace == pre + [Log(Error, msg)];
      NoExportThenLog(pre, msg);
    } else {
      ExportAndBuildOrdered(h, w, p, pre);
      assert ProjectStages(h, w, p) == ExportAndBuild(h, w, p, pre);
    }
  }

  /** The exporter is invoked at most once, and only after every shader
      compiler spawn. */
  lemma ExportAfterShaders(h: B.Handler, w: World)
    ensures ExportLast(Run(h, w).trace)
  {
    if !w.hasKorefile || w.project.LoadFailed? {
      StagedTrace(Run(h, w).trace, [], []);
    } else {
      ProjectStagesOrdered(h, w, w.project.project);
    }
  }

  /** A failing shader job aborts the run: nothing is exported, the error is
      logged last, and `run` returns the empty name. */
  lemma ShaderFailureAbortsRun(h: B.Handler, w: World)
    requires w.hasKorefile && w.project.Loaded?
    requires RunShaders(Setup(w), Jobs(w, w.project.project), w.shaderRun, 0).outcome.Fail?
    ensures Run(h, w).completion == Returned("")
    ensures !HasExport(Run(h, w).trace)
    ensures LastIs(Run(h, w).trace, Log(Error, SC.ErrorMessage(
              RunShaders(Setup(w), Jobs(w, w.project.project), w.shaderRun, 0).outcome.error)))
  {
    var p := w.project.project;
    var shaders := RunShaders(Setup(w), Jobs(w, p), w.shaderRun, 0);
    var pre := Intro(w.options.target) + [EnsureDir(w.options.to)] + shaders.actions;
    PreExportActions(w.options.target, w.options.to, shaders.actions);
    var msg := SC.ErrorMessage(shaders.outcome.error);
    assert ProjectStages(h, w, p).trace == pre + [Log(Error, msg)];
    assert Run(h, w).trace == ProjectStages(h, w, p).trace;
    assert Run(h, w).completion == ProjectStages(h, w, p).completion;
    NoExportThenLog(pre, msg);
  }

  /** The actions before the export, for a run whose shaders all compiled. */
  function PreExport(w: World, p: Project): seq<Action>
  {
    Intro(w.options.target) + [EnsureDir(w.options.to)] + RunShaders(Setup(w), Jobs(w, p), w.shaderRun, 0).actions
  }

  /** Once the shaders pass, the run is the export-and-build stage. */
  lemma ReachesExport(h: B.Handler, w: World)
    requires w.hasKorefile && w.project.Loaded?
    requires RunShaders(Setup(w), Jobs(w, w.project.project), w.shaderRun, 0).outcome.Pass?
    ensures Run(h, w).trace == ExportAndBuild(h, w, w.project.project, PreExport(w, w.project.project)).trace
    ensures Run(h, w).completion == ExportAndBuild(h, w, w.project.project, PreExport(w, w.project.project)).completion
  {
  }

  /** No build tool is spawned before the build stage. */
  lemma PreExportSpawnsNoBuild(w: World, p: Project)
    ensures forall k :: 0 <= k < |PreExport(w, p)| ==> !PreExport(w, p)[k].SpawnBuild? && !PreExport(w, p)[k].Export?
  {
    PreExportActions(w.options.target, w.options.to, RunShaders(Setup(w), Jobs(w, p), w.shaderRun, 0).actions);
  }

  /** A spawn-free prefix followed by one export. */
  lemma ExportClosesTrace(pre: seq<Action>, x: Action)
    requires forall k :: 0 <= k < |pre| ==> !pre[k].SpawnBuild?
    requires x.Export?
    ensures forall k :: 0 <= k < |pre + [x]| ==> !(pre + [x])[k].SpawnBuild?
    ensures LastIs(pre + [x], x)
  {
    var t := pre + [x];
    assert forall k :: 0 <= k < |pre| ==> t[k] == pre[k];
  }

  /** Without an exporter for the target the run logs the failure and
      returns the empty name; nothing is exported. */
  lemma NoExporterAbortsRun(h: B.Handler, w: World)
    requires w.hasKorefile && w.project.Loaded?
    requires RunShaders(Setup(w), Jobs(w, w.project.project), w.shaderRun, 0).outcome.Pass?
    requires E.SelectExporter(w.options.target, w.backends).None?
    ensures Run(h, w).completion == Returned("")
    ensures !HasExport(Run(h, w).trace)
    ensures LastIs(Run(h, w).trace, Log(Error, E.NoExporterMessage(w.options.target)))
  {
    var p := w.project.project;
    var pre := PreExport(w, p);
    ReachesExport(h, w);
    PreExportSpawnsNoBuild(w, p);
    var msg := E.NoExporterMessage(w.options.target);
    assert Run(h, w).trace == pre + [Log(Error, msg)];
    NoExportThenLog(pre, msg);
  }

  /** A failing exporter is logged and ends the run with the empty name,
      after exactly one export. */
  lemma ExportFailureAbortsRun(h: B.Handler, w: World)
    requires w.hasKorefile && w.project.Loaded?
    requires RunShaders(Setup(w), Jobs(w, w.project.project), w.shaderRun, 0).outcome.Pass?
    requires E.SelectExporter(w.options.target, w.backends).Some?
    requires w.exportError.Some?
    ensures Run(h, w).completion == Returned("")
    ensures Run(h, w).trace == PreExport(w, w.project.project)
              + [Export(E.SelectExporter(w.options.target, w.backends).value,
                        w.options.from, w.options.to, w.options.target),
                 Log(Error, w.exportError.value)]
  {
    var pre := PreExport(w, w.project.project);
    var x := Export(E.SelectExporter(w.options.target, w.backends).value,
                    w.options.from, w.options.to, w.options.target);
    var l := Log(Error, w.exportError.value);
    ReachesExport(h, w);
    assert Run(h, w).trace == (pre + [x]) + [l];
    assert (pre + [x]) + [l] == pre + [x, l];
  }

  /** Without `--compile` (or without a solution name) a run that exports
      returns the project name, the export is its last action, and no build
      tool is spawned. */
  lemma ExportOnlyRun(h: B.Handler, w: World)
    requires w.hasKorefile && w.project.Loaded?
    requires RunShaders(Setup(w), Jobs(w, w.project.project), w.shaderRun, 0).outcome.Pass?
    requires E.SelectExporter(w.options.target, w.backends).Some?
    requires w.exportError.None?
    requires !w.options.compile || w.project.project.name == ""
    ensures Run(h, w).completion == Returned(w.project.project.name)
    ensures LastIs(Run(h, w).trace, Export(E.SelectExporter(w.options.target, w.backends).value,
                                        w.options.from, w.options.to, w.options.target))
    ensures forall k :: 0 <= k < |Run(h, w).trace| ==> !Run(h, w).trace[k].SpawnBuild?
  {
    var p := w.project.project;
    var pre := PreExport(w, p);
    ReachesExport(h, w);
    PreExportSpawnsNoBuild(w, p);
    var x := Export(E.SelectExporter(w.options.target, w.backends).value,
                    w.options.from, w.options.to, w.options.target);
    assert Run(h, w).trace == pre + [x];
    ExportClosesTrace(pre, x);
  }

  /** With `--compile`, the build decides how the run ends: it exits with the
      build tool's code exactly when a tool was spawned and failed, and
      otherwise returns the solution name. */
  lemma BuildDecidesRun(h: B.Handler, w: World)
    requires w.hasKorefile && w.project.Loaded?
    requires RunShaders(Setup(w), Jobs(w, w.project.project), w.shaderRun, 0).outcome.Pass?
    requires E.SelectExporter(w.options.target, w.backends).Some?
    requires w.exportError.None?
    requires w.options.compile && w.project.project.name != ""
    ensures var o := w.options;
      var spawned := B.StartBuild(B.Target(o.target, o.customBase), o.to, B.BuildPath(o.debug),
                                  w.project.project.name, w.env).spawned;
      Run(h, w).completion == (if spawned && w.buildRun.exitCode != 0 then Exited(w.buildRun.exitCode)
                               else if spawned && h == B.AsWritten then NeverSettles
                               else Returned(w.project.project.name))
  {
    ReachesExport(h, w);
  }

  /** With an exporter that succeeds and `--compile` with a name, the run
      from the export on is the export followed by the build stage. */
  lemma ExportThenBuild(h: B.Handler, w: World, p: Project, pre: seq<Action>)
    requires E.SelectExporter(w.options.target, w.backends).Some?
    requires w.exportError.None?
    requires w.options.compile && p.name != ""
    ensures ExportAndBuild(h, w, p, pre) == RunResult(
              pre + [Export(E.SelectExporter(w.options.target, w.backends).value,
                            w.options.from, w.options.to, w.options.target)]
                  + BuildStage(h, w, p).actions,
              BuildStage(h, w, p).completion)
  {
  }

  /** On Windows without a Visual Studio installation the build stage logs
      that fact and the missing build path, spawns nothing, and the run
      still returns the solution name. */
  lemma VisualStudioMissingRun(h: B.Handler, w: World)
    requires w.hasKorefile && w.project.Loaded?
    requires RunShaders(Setup(w), Jobs(w, w.project.project), w.shaderRun, 0).outcome.Pass?
    requires E.SelectExporter(w.options.target, w.backends).Some?
    requires w.exportError.None?
    requires w.options.compile && w.project.project.name != ""
    requires var t := B.Target(w.options.target, w.options.customBase);
      !B.TargetIs(t, C.Linux) && !B.TargetIs(t, C.OSX) && B.TargetIs(t, C.Windows) && B.VsVars(w.env).None?
    ensures Run(h, w).completion == Returned(w.project.project.name)
    ensures Run(h, w).trace == PreExport(w, w.project.project)
              + [Export(E.SelectExporter(w.options.target, w.backends).value, w.options.from, w.options.to, w.options.target)]
              + [Log(Info, "Compiling..."),
                 Log(Error, "Visual Studio not found."),
                 Log(Info, "--compile not yet implemented for this platform")]
  {
    var o, p := w.options, w.project.project;
    ReachesExport(h, w);
    ExportThenBuild(h, w, p, PreExport(w, p));
    B.RunBuildWithoutVisualStudio(h, B.Target(o.target, o.customBase),
                                  B.Built(o.from, o.to, B.BuildPath(o.debug), p.debugDir, p.name, o.run),
                                  w.env, w.buildRun);
  }

  /** A successful build ends the stage from the export on with the copy
      and launch decisions, and on Linux that stage copies the binary built
      under the build path into the project's debug directory. */
  lemma SuccessfulExportAndBuild(h: B.Handler, w: World, p: Project, pre: seq<Action>)
    requires BuildSucceedsFrom(w, p)
    ensures var o := w.options;
      EndsWithActions(ExportAndBuild(h, w, p, pre).trace,
                      B.OnBuildSuccess(B.Target(o.target, o.customBase),
                                       B.Built(o.from, o.to, B.BuildPath(o.debug), p.debugDir, p.name, o.run)))
    ensures var o := w.options;
      B.TargetIs(B.Target(o.target, o.customBase), C.Linux) ==>
        CopyOverwrite(JoinPath(JoinPath(o.to, B.BuildPath(o.debug)), p.name),
                      JoinPath(JoinPath(o.from, p.debugDir), p.name)) in ExportAndBuild(h, w, p, pre).trace
  {
    var o := w.options;
    var t := B.Target(o.target, o.customBase);
    var b := B.Built(o.from, o.to, B.BuildPath(o.debug), p.debugDir, p.name, o.run);
    var front := pre + [Export(E.SelectExporter(o.target, w.backends).value, o.from, o.to, o.target)];
    var stage := BuildStage(h, w, p).actions;
    var trace := ExportAndBuild(h, w, p, pre).trace;
    assert trace == front + stage by {
      ExportThenBuild(h, w, p, pre);
    }
    B.RunBuildSuccessEnds(h, t, b, w.env, w.buildRun);
    B.EndsOfJoin(front, stage, B.OnBuildSuccess(t, b), trace);
  }

  /** A successful build ends the trace with the copy and launch decisions;
      on Linux the trace holds the copy of the binary built under the build
      path into the project's debug directory, overwriting it. */
  lemma SuccessfulBuildCopies(h: B.Handler, w: World)
    requires BuildSucceeds(w)
    ensures var o, p := w.options, w.project.project;
      EndsWithActions(Run(h, w).trace,
                      B.OnBuildSuccess(B.Target(o.target, o.customBase),
                                       B.Built(o.from, o.to, B.BuildPath(o.debug), p.debugDir, p.name, o.run)))
    ensures var o, p := w.options, w.project.project;
      B.TargetIs(B.Target(o.target, o.customBase), C.Linux) ==>
        CopyOverwrite(JoinPath(JoinPath(o.to, B.BuildPath(o.debug)), p.name),
                      JoinPath(JoinPath(o.from, p.debugDir), p.name)) in Run(h, w).trace
  {
    ReachesExport(h, w);
    SuccessfulExportAndBuild(h, w, w.project.project, PreExport(w, w.project.project));
  }

  /** Past the shaders: an exporter ran without error, and the build stage
      spawned a tool that exited with 0. */
  predicate BuildSucceedsFrom(w: World, p: Project)
  {
    && E.SelectExporter(w.options.target, w.backends).Some?
    && w.exportError.None?
    && w.options.compile && p.name != ""
    && B.StartBuild(B.Target(w.options.target, w.options.customBase), w.options.to, B.BuildPath(w.options.debug),
                    p.name, w.env).spawned
    && w.buildRun.exitCode == 0
  }

  /** The run reaches a build tool that was spawned and exited with 0. */
  predicate BuildSucceeds(w: World)
  {
    && w.hasKorefile && w.project.Loaded?
    && RunShaders(Setup(w), Jobs(w, w.project.project), w.shaderRun, 0).outcome.Pass?
    && BuildSucceedsFrom(w, w.project.project)
  }

  /** The two handlers from the export on: the same actions, and the same
      ending except for a successful build. */
  lemma HandlersFromExport(w: World, p: Project, pre: seq<Action>)
    ensures ExportAndBuild(B.AsWritten, w, p, pre).trace == ExportAndBuild(B.Corrected, w, p, pre).trace
    ensures ExportAndBuild(B.AsWritten, w, p, pre).completion == NeverSettles <==> BuildSucceedsFrom(w, p)
    ensures BuildSucceedsFrom(w, p) ==> ExportAndBuild(B.Corrected, w, p, pre).completion == Returned(p.name)
    ensures !BuildSucceedsFrom(w, p) ==>
              ExportAndBuild(B.AsWritten, w, p, pre).completion == ExportAndBuild(B.Corrected, w, p, pre).completion
  {
    var o := w.options;
    if E.SelectExporter(o.target, w.backends).Some? && w.exportError.None? && o.compile && p.name != "" {
      var t := B.Target(o.target, o.customBase);
      var b := B.Built(o.from, o.to, B.BuildPath(o.debug), p.debugDir, p.name, o.run);
      B.RunBuildHandlers(t, b, w.env, w.buildRun);
      B.RunBuildEnds(B.AsWritten, t, b, w.env, w.buildRun);
    }
  }

  /** With the handler as written, `run` stays pending exactly when a build
      tool was spawned and succeeded; with the corrected one that run returns
      the solution name instead, and every other run ends the same way.
      The two handlers take the same actions on every run. */
  lemma NeverSettlesExactly(w: World)
    ensures Run(B.AsWritten, w).completion == NeverSettles <==> BuildSucceeds(w)
    ensures BuildSucceeds(w) ==> Run(B.Corrected, w).completion == Returned(w.project.project.name)
    ensures !BuildSucceeds(w) ==> Run(B.AsWritten, w).completion == Run(B.Corrected, w).completion
    ensures Run(B.AsWritten, w).trace == Run(B.Corrected, w).trace
  {
    if w.hasKorefile && w.project.Loaded? {
      var p := w.project.project;
      if RunShaders(Setup(w), Jobs(w, p), w.shaderRun, 0).outcome.Pass? {
        ReachesExport(B.AsWritten, w);
        ReachesExport(B.Corrected, w);
        HandlersFromExport(w, p, PreExport(w, p));
      }
    }
  }
}

=== FILE: results.dfy ===
/** The three shapes of "maybe" the orchestrator needs. */
module Results {

  /** An optional command-line value or environment lookup, a plugin found
      or not, an identifier that may not parse. */
  datatype Option<T> = None | Some(value: T)

  /** Locating the shader compiler: its path, or why there is none. */
  datatype Result<T, E> = Ok(value: T) | Err(error: E)

  /** A shader compilation or a whole shader stage: it passed, or the error
      that stops the run. */
  datatype Outcome<E> = Pass | Fail(error: E)
}

=== FILE: search.dfy ===
/** Positional searches over sequences, used where the orchestrator scans a
    directory listing: the first match within one listing, and the last match
    of a scan that keeps overwriting its choice. */
module Search {

  /** Position of the first element satisfying `p`, or -1 when none does. */
  function FirstWhere<T>(s: seq<T>, p: T -> bool): (r: int)
    ensures -1 <= r < |s|
    ensures r >= 0 ==> p(s[r])
    ensures r == -1 <==> forall k :: 0 <= k < |s| ==> !p(s[k])
    ensures forall k :: 0 <= k < r ==> !p(s[k])
  {
    if |s| == 0 then -1
    else if p(s[0]) then 0
    else
      var r' := FirstWhere(s[1..], p);
      if r' == -1 then -1 else r' + 1
  }

  /** Position of the last element satisfying `p`, or -1 when none does. */
  function LastWhere<T>(s: seq<T>, p: T -> bool): (r: int)
    ensures -1 <= r < |s|
    ensures r >= 0 ==> p(s[r])
    ensures r == -1 <==> forall k :: 0 <= k < |s| ==> !p(s[k])
    ensures forall k :: r < k < |s| ==> !p(s[k])
  {
    if |s| == 0 then -1
    else if p(s[|s| - 1]) then |s| - 1
    else LastWhere(s[..|s| - 1], p)
  }
}

=== FILE: shader_compiler.dfy ===
/** `compileShader` (src/main.ts:117-194): where the shader compiler is found,
    how it is invoked, how its output becomes log lines, and how its exit code
    decides the outcome. */
module ShaderCompiler {
  import opened Results
  import opened Strings
  import opened FileTree
  import opened Actions
  import P = StderrParser

  /** The inputs `compileShader` reads besides its arguments: the project
      directory, the engine root (`Project.koreDir`), the executable suffix
      (`exec.sys()`), the project's `Backends` path and the debug flag. */
  datatype Setup = Setup(projectDir: string, koreDir: string, sys: string, backends: Backends, debug: bool)

  /** The bundled compiler below the engine root; empty when there is no root. */
  function BundledCompiler(koreDir: string, sys: string): (r: string)
    ensures r == "" <==> koreDir == ""
  {
    if koreDir == "" then ""
    else JoinPath(JoinPath(JoinPath(koreDir, "Tools"), "krafix"), "krafix" + sys)
  }

  /** Where a backend keeps a platform-specific compiler, relative to itself. */
  function KrafixExe(platform: string): string
  {
    JoinPath("krafix", "krafix-" + platform + ".exe")
  }

  /** A `Backends` entry that is a directory holding the platform's compiler. */
  predicate HasKrafix(platform: string, e: DirEntry)
  {
    e.isDir && KrafixExe(platform) in e.nested
  }

  function OverridePath(projectDir: string, e: DirEntry, platform: string): (r: string)
    ensures r != ""
  {
    JoinPath(JoinPath(JoinPath(projectDir, "Backends"), e.name), KrafixExe(platform))
  }

  /** The compiler path for a `Backends` listing: every backend holding a
      compiler for the platform overrides the bundled one, the last one
      listed winning; an empty path means no compiler. */
  function CompilerPath(projectDir: string, koreDir: string, sys: string, entries: seq<DirEntry>, platform: string): string
  {
    if entries == [] then BundledCompiler(koreDir, sys)
    else if HasKrafix(platform, entries[|entries| - 1]) then OverridePath(projectDir, entries[|entries| - 1], platform)
    else CompilerPath(projectDir, koreDir, sys, entries[..|entries| - 1], platform)
  }

  /** Without a backend holding a compiler, the bundled one is used. */
  lemma {:induction false} CompilerPathBundled(projectDir: string, koreDir: string, sys: string, entries: seq<DirEntry>, platform: string)
    requires forall k :: 0 <= k < |entries| ==> !HasKrafix(platform, entries[k])
    ensures CompilerPath(projectDir, koreDir, sys, entries, platform) == BundledCompiler(koreDir, sys)
    decreases |entries|
  {
    if entries != [] {
      var prefix := entries[..|entries| - 1];
      assert forall k :: 0 <= k < |prefix| ==> prefix[k] == entries[k];
      CompilerPathBundled(projectDir, koreDir, sys, prefix, platform);
    }
  }

  /** The last backend holding a compiler provides it, whatever the earlier
      ones hold. */
  lemma {:induction false} CompilerPathLast(projectDir: string, koreDir: string, sys: string, entries: seq<DirEntry>, platform: string, k: nat)
    requires k < |entries| && HasKrafix(platform, entries[k])
    requires forall j :: k < j < |entries| ==> !HasKrafix(platform, entries[j])
    ensures CompilerPath(projectDir, koreDir, sys, entries, platform) == OverridePath(projectDir, entries[k], platform)
    decreases |entries|
  {
    var n := |entries| - 1;
    if k < n {
      var prefix := entries[..n];
      assert !HasKrafix(platform, entries[n]);
      assert forall j :: 0 <= j < n ==> prefix[j] == entries[j];
      CompilerPathLast(projectDir, koreDir, sys, prefix, platform, k);
    }
  }

  /** The path is empty exactly when there is neither an engine root nor a
      backend holding a compiler. */
  lemma {:induction false} CompilerPathEmpty(projectDir: string, koreDir: string, sys: string, entries: seq<DirEntry>, platform: string)
    ensures CompilerPath(projectDir, koreDir, sys, entries, platform) == "" <==>
              koreDir == "" && forall k :: 0 <= k < |entries| ==> !HasKrafix(platform, entries[k])
    decreases |entries|
  {
    if entries != [] {
      var n := |entries| - 1;
      var prefix := entries[..n];
      if !HasKrafix(platform, entries[n]) {
        assert forall j :: 0 <= j < n ==> prefix[j] == entries[j];
        CompilerPathEmpty(projectDir, koreDir, sys, prefix, platform);
      }
    }
  }

  /** The resolution written as the source's loop, which keeps assigning the
      path for each matching backend; it agrees with `CompilerPath`. */
  method ResolveCompilerPath(projectDir: string, koreDir: string, sys: string, entries: seq<DirEntry>, platform: string)
    returns (compilerPath: string)
    ensures compilerPath == CompilerPath(projectDir, koreDir, sys, entries, platform)
  {
    compilerPath := "";
    if koreDir != "" {
      compilerPath := BundledCompiler(koreDir, sys);
    }
    assert entries[..0] == [];
    for i := 0 to |entries|
      invariant compilerPath == CompilerPath(projectDir, koreDir, sys, entries[..i], platform)
    {
      assert entries[..i + 1][..i] == entries[..i];
      var libdir := entries[i];
      if libdir.isDir {
        var exe := OverridePath(projectDir, libdir, platform);
        if KrafixExe(platform) in libdir.nested {
          compilerPath := exe;
        }
      }
    }
    assert entries[..|entries|] == entries;
  }

  /** The compiler's argument vector. */
  function CompilerArgs(dialect: string, from: string, to: string, temp: string, platform: string, debug: bool): (r: seq<string>)
    ensures |r| == if debug then 6 else 5
    ensures r[..5] == [dialect, from, to, temp, platform]
    ensures "--debug" in r[5..] <==> debug
  {
    var params := [dialect, from, to, temp, platform];
    if debug then params + ["--debug"] else params
  }

  /** The log actions for parser events: logged lines become error logs,
      discarded `#` lines leave no trace. */
  function ErrorLogs(events: seq<P.Event>): (r: seq<Action>)
    ensures forall k :: 0 <= k < |r| ==> r[k].Log? && r[k].level == Error
    ensures |r| <= |events|
  {
    if events == [] then []
    else
      (match events[0]
       case LoggedError(t) => [Log(Error, t)]
       case Discarded(_) => [])
      + ErrorLogs(events[1..])
  }

  lemma {:induction false} ErrorLogsAppend(a: seq<P.Event>, b: seq<P.Event>)
    ensures ErrorLogs(a + b) == ErrorLogs(a) + ErrorLogs(b)
    decreases |a|
  {
    if a == [] {
      assert a + b == b;
    } else {
      assert (a + b)[0] == a[0];
      assert (a + b)[1..] == a[1..] + b;
      ErrorLogsAppend(a[1..], b);
      var head := match a[0] case LoggedError(t) => [Log(Error, t)] case Discarded(_) => [];
      assert head + (ErrorLogs(a[1..]) + ErrorLogs(b)) == (head + ErrorLogs(a[1..])) + ErrorLogs(b);
    }
  }

  /** The compiler's output callbacks, in arrival order: stdout chunks are
      logged as info verbatim, stderr chunks go through the line reassembler
      whose state persists from chunk to chunk. */
  function OutputLogs(st: P.State, chunks: seq<Chunk>): seq<Action>
    decreases |chunks|
  {
    if chunks == [] then []
    else match chunks[0]
      case Stdout(t) => [Log(Info, t)] + OutputLogs(st, chunks[1..])
      case Stderr(t) =>
        var (st1, events) := P.Feed(st, t);
        ErrorLogs(events) + OutputLogs(st1, chunks[1..])
  }

  /** All stderr text, in order. */
  function StderrText(chunks: seq<Chunk>): string
  {
    if chunks == [] then ""
    else (if chunks[0].Stderr? then chunks[0].text else "") + StderrText(chunks[1..])
  }

  /** The log lines of a run at one level, in order. */
  function LogsAt(level: Level, actions: seq<Action>): (r: seq<Action>)
    ensures |r| <= |actions|
  {
    if actions == [] then []
    else (if actions[0].Log? && actions[0].level == level then [actions[0]] else []) + LogsAt(level, actions[1..])
  }

  lemma {:induction false} LogsAtAppend(level: Level, a: seq<Action>, b: seq<Action>)
    ensures LogsAt(level, a + b) == LogsAt(level, a) + LogsAt(level, b)
    decreases |a|
  {
    if a == [] {
      assert a + b == b;
    } else {
      assert (a + b)[0] == a[0];
      assert (a + b)[1..] == a[1..] + b;
      LogsAtAppend(level, a[1..], b);
      var head := if a[0].Log? && a[0].level == level then [a[0]] else [];
      assert head + (LogsAt(level, a[1..]) + LogsAt(level, b)) == (head + LogsAt(level, a[1..])) + LogsAt(level, b);
    }
  }

  /** The reassembler's log lines are all errors: they keep their place
      among the errors and add no info line. */
  lemma {:induction false} LogsAtErrorLogs(events: seq<P.Event>)
    ensures LogsAt(Error, ErrorLogs(events)) == ErrorLogs(events)
    ensures LogsAt(Info, ErrorLogs(events)) == []
    decreases |events|
  {
    if events != [] {
      var head := match events[0] case LoggedError(t) => [Log(Error, t)] case Discarded(_) => [];
      LogsAtAppend(Error, head, ErrorLogs(events[1..]));
      LogsAtAppend(Info, head, ErrorLogs(events[1..]));
      LogsAtErrorLogs(events[1..]);
    }
  }

  /** One info line per stdout chunk, with the chunk's text, in order. */
  function StdoutLogs(chunks: seq<Chunk>): (r: seq<Action>)
    ensures |r| <= |chunks|
    ensures forall k :: 0 <= k < |r| ==> r[k].Log? && r[k].level == Info
  {
    if chunks == [] then []
    else (if chunks[0].Stdout? then [Log(Info, chunks[0].text)] else []) + StdoutLogs(chunks[1..])
  }

  /** However the callbacks interleave, the info lines logged are the stdout
      chunks, verbatim and in order. */
  lemma {:induction false} InfoLinesFollowStdout(st: P.State, chunks: seq<Chunk>)
    ensures LogsAt(Info, OutputLogs(st, chunks)) == StdoutLogs(chunks)
    decreases |chunks|
  {
    if chunks != [] {
      match chunks[0]
      case Stdout(t) =>
        LogsAtAppend(Info, [Log(Info, t)], OutputLogs(st, chunks[1..]));
        InfoLinesFollowStdout(st, chunks[1..]);
      case Stderr(t) =>
        var (st1, events) := P.Feed(st, t);
        LogsAtAppend(Info, ErrorLogs(events), OutputLogs(st1, chunks[1..]));
        LogsAtErrorLogs(events);
        InfoLinesFollowStdout(st1, chunks[1..]);
        assert StdoutLogs(chunks) == [] + StdoutLogs(chunks[1..]);
    }
  }

  /** However stdout and stderr callbacks interleave and however stderr is cut
      into chunks, the error lines logged are those the reassembler produces
      for the whole stderr text. */
  lemma {:induction false} ErrorLinesFollowStderr(st: P.State, chunks: seq<Chunk>)
    ensures LogsAt(Error, OutputLogs(st, chunks)) == ErrorLogs(P.Feed(st, StderrText(chunks)).1)
    decreases |chunks|
  {
    if chunks != [] {
      match chunks[0]
      case Stdout(t) =>
        LogsAtAppend(Error, [Log(Info, t)], OutputLogs(st, chunks[1..]));
        ErrorLinesFollowStderr(st, chunks[1..]);
        assert StderrText(chunks) == "" + StderrText(chunks[1..]);
        assert "" + StderrText(chunks[1..]) == StderrText(chunks[1..]);
      case Stderr(t) =>
        var (st1, events) := P.Feed(st, t);
        LogsAtAppend(Error, ErrorLogs(events), OutputLogs(st1, chunks[1..]));
        LogsAtErrorLogs(events);
        ErrorLinesFollowStderr(st1, chunks[1..]);
        P.FeedConcat(st, t, StderrText(chunks[1..]));
        ErrorLogsAppend(events, P.Feed(st1, StderrText(chunks[1..])).1);
    }
  }

  datatype CompileError =
    | BackendsUnreadable(path: string)   // `readdirSync` on a `Backends` that is no directory
    | CompilerNotFound
    | CompilerFailed

  function ErrorMessage(e: CompileError): string
  {
    match e
    case BackendsUnreadable(path) => "ENOTDIR: not a directory, scandir '" + path + "'"
    case CompilerNotFound => "Could not find shader compiler."
    case CompilerFailed => "Shader compiler error."
  }

  /** The path `compileShader` settles on, or the error raised before any
      spawn: listing a `Backends` that is no directory fails, and an empty
      path is "Could not find shader compiler.". */
  function LocateCompiler(s: Setup, platform: string): (r: Result<string, CompileError>)
    ensures r.Ok? ==> r.value != ""
    ensures s.backends.NotADirectory? ==> r == Err(BackendsUnreadable(JoinPath(s.projectDir, "Backends")))
    ensures s.backends.Absent? ==>
              (r.Ok? <==> s.koreDir != "") && (r.Ok? ==> r.value == BundledCompiler(s.koreDir, s.sys))
              && (r.Err? ==> r.error == CompilerNotFound)
    ensures s.backends.Listing? ==>
              var path := CompilerPath(s.projectDir, s.koreDir, s.sys, s.backends.entries, platform);
              && (r.Ok? ==> r.value == path)
              && (r.Err? <==> path == "")
              && (r.Err? ==> r.error == CompilerNotFound)
  {
    match s.backends
    case NotADirectory => Err(BackendsUnreadable(JoinPath(s.projectDir, "Backends")))
    case Absent =>
      var path := BundledCompiler(s.koreDir, s.sys);
      if path == "" then Err(CompilerNotFound) else Ok(path)
    case Listing(entries) =>
      var path := CompilerPath(s.projectDir, s.koreDir, s.sys, entries, platform);
      if path == "" then Err(CompilerNotFound) else Ok(path)
  }

  /** A compiler is found exactly when `Backends` is readable and either an
      engine root is configured or some backend holds the platform's
      compiler; otherwise no compiler process is started. */
  lemma LocateCompilerFound(s: Setup, platform: string)
    ensures LocateCompiler(s, platform).Ok? <==>
      match s.backends
      case NotADirectory => false
      case Absent => s.koreDir != ""
      case Listing(entries) => s.koreDir != "" || exists k :: 0 <= k < |entries| && HasKrafix(platform, entries[k])
  {
    if s.backends.Listing? {
      CompilerPathEmpty(s.projectDir, s.koreDir, s.sys, s.backends.entries, platform);
    }
  }

  datatype Compilation = Compilation(actions: seq<Action>, outcome: Outcome<CompileError>)

  /** Every action of a shader compilation is a log line or the one spawn. */
  predicate CompilationActions(actions: seq<Action>)
  {
    forall k :: 0 <= k < |actions| ==> actions[k].Log? || actions[k].RunShaderCompiler?
  }

  /** One `compileShader` call, given how the compiler process behaves. */
  function CompileShader(s: Setup, dialect: string, from: string, to: string, temp: string, platform: string, run: ToolRun)
    : (c: Compilation)
    ensures CompilationActions(c.actions)
    ensures c.outcome == Pass <==> LocateCompiler(s, platform).Ok? && run.exitCode == 0
    ensures LocateCompiler(s, platform).Err? ==>
              c.actions == [] && c.outcome == Fail(LocateCompiler(s, platform).error)
  {
    match LocateCompiler(s, platform)
    case Err(e) => Compilation([], Fail(e))
    case Ok(path) =>
      var spawn := RunShaderCompiler(path, CompilerArgs(dialect, from, to, temp, platform, s.debug));
      var logs := OutputLogs(P.Initial, run.output);
      OutputLogsAreLogs(P.Initial, run.output);
      Compilation([spawn] + logs, if run.exitCode == 0 then Pass else Fail(CompilerFailed))
  }

  /** A located compiler is spawned first, with the argument vector; every
      later action is a log line; the error lines are exactly the stderr
      lines the reassembler logs, and the info lines exactly the stdout
      chunks, in order; a non-zero exit code fails the
      call with the compiler error. */
  lemma CompileShaderActions(s: Setup, dialect: string, from: string, to: string, temp: string, platform: string, run: ToolRun)
    requires LocateCompiler(s, platform).Ok?
    ensures var c := CompileShader(s, dialect, from, to, temp, platform, run);
      && |c.actions| >= 1
      && c.actions[0] == RunShaderCompiler(LocateCompiler(s, platform).value,
                                           CompilerArgs(dialect, from, to, temp, platform, s.debug))
      && (forall k :: 1 <= k < |c.actions| ==> c.actions[k].Log?)
      && LogsAt(Error, c.actions) == ErrorLogs(P.Feed(P.Initial, StderrText(run.output)).1)
      && LogsAt(Info, c.actions) == StdoutLogs(run.output)
      && (run.exitCode != 0 ==> c.outcome == Fail(CompilerFailed))
  {
    var path := LocateCompiler(s, platform).value;
    var spawn := RunShaderCompiler(path, CompilerArgs(dialect, from, to, temp, platform, s.debug));
    var logs := OutputLogs(P.Initial, run.output);
    OutputLogsAreLogs(P.Initial, run.output);
    LogsAtAppend(Error, [spawn], logs);
    LogsAtAppend(Info, [spawn], logs);
    ErrorLinesFollowStderr(P.Initial, run.output);
    InfoLinesFollowStdout(P.Initial, run.output);
    assert CompileShader(s, dialect, from, to, temp, platform, run).actions == [spawn] + logs;
  }

  lemma {:induction false} OutputLogsAreLogs(st: P.State, chunks: seq<Chunk>)
    ensures forall k :: 0 <= k < |OutputLogs(st, chunks)| ==> OutputLogs(st, chunks)[k].Log?
    decreases |chunks|
  {
    if chunks != [] {
      match chunks[0]
      case Stdout(t) => OutputLogsAreLogs(st, chunks[1..]);
      case Stderr(t) => OutputLogsAreLogs(P.Feed(st, t).0, chunks[1..]);
    }
  }
}

=== FILE: shader_jobs.dfy ===
/** The shader job list of `exportKoremakeProject` (src/main.ts:213-236): which
    project files are compiled, in which order, under which 1-based counter,
    and to which output name. */
module ShaderJobs {
  import opened Strings

  predicate IsShaderSource(file: string)
  {
    EndsWith(file, ".glsl")
  }

  /** The project files that are shader sources, in file-list order. */
  function GlslFiles(files: seq<string>): (r: seq<string>)
    ensures |r| <= |files|
  {
    if files == [] then []
    else (if IsShaderSource(files[0]) then [files[0]] else []) + GlslFiles(files[1..])
  }

  /** Filtering keeps exactly the shader sources: nothing else, none lost. */
  lemma {:induction false} GlslFilesMembers(files: seq<string>, f: string)
    ensures f in GlslFiles(files) <==> f in files && IsShaderSource(f)
    decreases |files|
  {
    if files != [] {
      GlslFilesMembers(files[1..], f);
      assert files == [files[0]] + files[1..];
    }
  }

  /** Filtering respects order: the shaders of `a + b` are those of `a`
      followed by those of `b`. */
  lemma {:induction false} GlslFilesAppend(a: seq<string>, b: seq<string>)
    ensures GlslFiles(a + b) == GlslFiles(a) + GlslFiles(b)
    decreases |a|
  {
    if a == [] {
      assert a + b == b;
    } else {
      assert (a + b)[0] == a[0];
      assert (a + b)[1..] == a[1..] + b;
      GlslFilesAppend(a[1..], b);
      var head := if IsShaderSource(a[0]) then [a[0]] else [];
      assert head + (GlslFiles(a[1..]) + GlslFiles(b)) == (head + GlslFiles(a[1..])) + GlslFiles(b);
    }
  }

  /** The part of a path kept by the output name: from its last `/` on (the
      slash kept) when that slash is not the first character, else all of it. */
  function OutputTail(file: string): (r: string)
    ensures EndsWith(file, r)
    ensures forall k :: 0 < k < |r| ==> r[k] != '/'
  {
    var index := LastIndexOf(file, '/');
    if index > 0 then file[index..] else file
  }

  /** A file without a `/` past its first character is its own tail; any
      other tail starts with a `/`. */
  lemma OutputTailCases(file: string)
    ensures (forall k :: 0 < k < |file| ==> file[k] != '/') ==> OutputTail(file) == file
    ensures (exists k :: 0 < k < |file| && file[k] == '/') ==> |OutputTail(file)| >= 1 && OutputTail(file)[0] == '/'
  {
  }

  /** The tail starts at the last `/` past the first character: it is the
      suffix from that slash on, whatever precedes it. */
  lemma OutputTailAt(file: string, k: nat)
    requires 0 < k < |file| && file[k] == '/'
    requires forall j :: k < j < |file| ==> file[j] != '/'
    ensures OutputTail(file) == file[k..]
  {
  }

  /** The tail of a shader source keeps the whole `.glsl` extension, which
      holds no `/`. */
  lemma ShaderTail(file: string)
    requires IsShaderSource(file)
    ensures var tail := OutputTail(file);
      |tail| >= 5 && tail[..|tail| - 5] + ".glsl" == tail
  {
    var index := LastIndexOf(file, '/');
    var n := |file|;
    var ext := file[n - 5..];
    assert ext == ".glsl";
    var tail := OutputTail(file);
    if index > 0 {
      assert tail[|tail| - 5..] == ext;
    }
    assert tail == tail[..|tail| - 5] + tail[|tail| - 5..];
  }

  /** The output name of a shader: its tail without the last five characters
      (`substr(0, length - 5)`, which is empty for a shorter tail). */
  function OutputName(file: string): (r: string)
    ensures forall k :: 0 < k < |r| ==> r[k] != '/'
    ensures IsShaderSource(file) ==> r + ".glsl" == OutputTail(file)
  {
    var tail := OutputTail(file);
    assert IsShaderSource(file) ==> |tail| >= 5 && tail[..|tail| - 5] + ".glsl" == tail by {
      if IsShaderSource(file) {
        ShaderTail(file);
      }
    }
    if |tail| >= 5 then tail[..|tail| - 5] else ""
  }

  /** The base name of a path: what follows its last `/`. */
  function BaseName(file: string): (r: string)
    ensures EndsWith(file, r)
    ensures forall k :: 0 <= k < |r| ==> r[k] != '/'
    ensures |r| < |file| ==> EndsWith(file, "/" + r)
  {
    file[LastIndexOf(file, '/') + 1..]
  }

  /** `path.parse(file).name` for a shader source: its base name without the
      `.glsl` extension, or the whole base name when that is only `.glsl`. */
  function ShaderName(file: string): (r: string)
    ensures forall k :: 0 <= k < |r| ==> r[k] != '/'
    ensures IsShaderSource(file) && |BaseName(file)| > 5 ==> r + ".glsl" == BaseName(file)
    ensures |BaseName(file)| <= 5 ==> r == BaseName(file)
  {
    var base := BaseName(file);
    SuffixOfSuffix(file, base, ".glsl");
    if |base| > 5 then base[..|base| - 5] else base
  }

  /** One `compileShader` call: its 1-based position among the count of
      shader sources, the source, its dialect, the debug directory its
      output goes to, the temporary directory, and the platform. */
  datatype ShaderJob = ShaderJob(
    index: nat, count: nat, source: string, dialect: string, debugDir: string, temp: string, platform: string)
  {
    /** The destination passed to `compileShader`: the output name below
        the debug directory. */
    function Dest(): string
    {
      JoinPath(debugDir, OutputName(source))
    }
  }

  function JobFor(index: nat, count: nat, file: string, dialect: string, debugDir: string, platform: string): ShaderJob
  {
    ShaderJob(index, count, file, dialect, debugDir, "build", platform)
  }

  /** `Compiling shader <index> of <count> (<name>).`, from the decimal
      texts of the two numbers and the name. */
  function ProgressLine(index: string, count: string, name: string): (r: string)
    ensures StartsWith(r, "Compiling shader " + index + " of " + count)
    ensures EndsWith(r, " (" + name + ").")
    ensures |r| == |"Compiling shader " + index + " of " + count| + |" (" + name + ")."|
  {
    JoinRight("Compiling shader ", index, " of ", count, " (" + name + ").");
    JoinEnds("Compiling shader " + index + " of " + count, " (" + name + ").");
    "Compiling shader " + (index + (" of " + (count + (" (" + name + ")."))))
  }

  /** A progress line with digit-only numbers gives back its parts. */
  lemma ProgressLineParts(i1: string, c1: string, n1: string, i2: string, c2: string, n2: string)
    requires ProgressLine(i1, c1, n1) == ProgressLine(i2, c2, n2)
    requires IsDigits(i1)
    requires IsDigits(i2)
    requires IsDigits(c1)
    requires IsDigits(c2)
    ensures i1 == i2 && c1 == c2 && n1 == n2
  {
    TwoNumbersApart("Compiling shader ", " of ", i1, c1, " (" + n1 + ").", i2, c2, " (" + n2 + ").");
    MiddleOf(" (", n1, n2, ").");
  }

  /** The progress line of a job: its number, the total, and the shader's
      name. */
  function ProgressMessage(job: ShaderJob): (r: string)
    ensures StartsWith(r, "Compiling shader " + NatToString(job.index) + " of " + NatToString(job.count))
    ensures EndsWith(r, " (" + ShaderName(job.source) + ").")
    ensures |r| == |"Compiling shader " + NatToString(job.index) + " of " + NatToString(job.count)|
                   + |" (" + ShaderName(job.source) + ")."|
  {
    ProgressLine(NatToString(job.index), NatToString(job.count), ShaderName(job.source))
  }

  /** Equal progress lines have the same decimal texts and the same name. */
  lemma ProgressMessageParts(j1: ShaderJob, j2: ShaderJob)
    requires ProgressMessage(j1) == ProgressMessage(j2)
    ensures NatToString(j1.index) == NatToString(j2.index) && NatToString(j1.count) == NatToString(j2.count)
    ensures ShaderName(j1.source) == ShaderName(j2.source)
  {
    ProgressLineParts(NatToString(j1.index), NatToString(j1.count), ShaderName(j1.source),
                      NatToString(j2.index), NatToString(j2.count), ShaderName(j2.source));
  }

  /** The progress line determines the job's number, the total and the
      shader's name. */
  lemma ProgressMessageDetermines(j1: ShaderJob, j2: ShaderJob)
    requires ProgressMessage(j1) == ProgressMessage(j2)
    ensures j1.index == j2.index && j1.count == j2.count && ShaderName(j1.source) == ShaderName(j2.source)
  {
    ProgressMessageParts(j1, j2);
    NatToStringInjective(j1.index, j2.index);
    NatToStringInjective(j1.count, j2.count);
  }

  /** Shader sources numbered from 1, each carrying the total `count`. */
  function Numbered(glsl: seq<string>, count: nat, platform: string, dialect: string, debugDir: string)
    : (jobs: seq<ShaderJob>)
    ensures |jobs| == |glsl|
  {
    if glsl == [] then []
    else
      Numbered(glsl[..|glsl| - 1], count, platform, dialect, debugDir)
        + [JobFor(|glsl|, count, glsl[|glsl| - 1], dialect, debugDir, platform)]
  }

  lemma NumberedSnoc(glsl: seq<string>, f: string, count: nat, platform: string, dialect: string, debugDir: string)
    ensures Numbered(glsl + [f], count, platform, dialect, debugDir)
         == Numbered(glsl, count, platform, dialect, debugDir) + [JobFor(|glsl| + 1, count, f, dialect, debugDir, platform)]
  {
    assert (glsl + [f])[..|glsl|] == glsl;
  }

  /** The k-th numbered job is the k-th source under number k + 1. */
  lemma {:induction false} NumberedAt(glsl: seq<string>, count: nat, platform: string, dialect: string, debugDir: string, k: nat)
    requires k < |glsl|
    ensures Numbered(glsl, count, platform, dialect, debugDir)[k] == JobFor(k + 1, count, glsl[k], dialect, debugDir, platform)
    decreases |glsl|
  {
    if k < |glsl| - 1 {
      NumberedAt(glsl[..|glsl| - 1], count, platform, dialect, debugDir, k);
    }
  }

  lemma GlslFilesSnoc(files: seq<string>, i: nat)
    requires i < |files|
    ensures GlslFiles(files[..i + 1]) == GlslFiles(files[..i]) + (if IsShaderSource(files[i]) then [files[i]] else [])
  {
    GlslFilesAppend(files[..i], [files[i]]);
    assert files[..i + 1] == files[..i] + [files[i]];
    assert [files[i]][1..] == [];
  }

  /** One iteration of the numbering loop: with `jobs` numbered so far and
      `index` of them, a shader source gets number `index + 1`, any other
      file adds no job. */
  lemma NumberingStep(files: seq<string>, i: nat, jobs: seq<ShaderJob>, index: nat,
                      count: nat, platform: string, dialect: string, debugDir: string)
    requires i < |files|
    requires jobs == Numbered(GlslFiles(files[..i]), count, platform, dialect, debugDir) && index == |jobs|
    ensures IsShaderSource(files[i]) ==>
              Numbered(GlslFiles(files[..i + 1]), count, platform, dialect, debugDir)
                == jobs + [JobFor(index + 1, count, files[i], dialect, debugDir, platform)]
    ensures !IsShaderSource(files[i]) ==>
              Numbered(GlslFiles(files[..i + 1]), count, platform, dialect, debugDir) == jobs
  {
    GlslFilesSnoc(files, i);
    var glsl := GlslFiles(files[..i]);
    if IsShaderSource(files[i]) {
      NumberedSnoc(glsl, files[i], count, platform, dialect, debugDir);
    } else {
      assert GlslFiles(files[..i + 1]) == glsl + [];
      assert glsl + [] == glsl;
    }
  }

  /** The jobs in the order they run: none when shaders are switched off,
      otherwise one per shader source, in file-list order, numbered from 1. */
  function ShaderJobs(files: seq<string>, noshaders: bool, platform: string, dialect: string, debugDir: string)
    : seq<ShaderJob>
  {
    if noshaders then []
    else
      var glsl := GlslFiles(files);
      Numbered(glsl, |glsl|, platform, dialect, debugDir)
  }

  /** What each job holds: its 1-based position, the total, the source in
      file-list order among the shader sources, and the output path below
      the debug directory. */
  lemma ShaderJobsShape(files: seq<string>, noshaders: bool, platform: string, dialect: string, debugDir: string)
    ensures var jobs := ShaderJobs(files, noshaders, platform, dialect, debugDir);
      && (noshaders ==> jobs == [])
      && (!noshaders ==> |jobs| == |GlslFiles(files)|)
      && forall k :: 0 <= k < |jobs| ==>
           && jobs[k].index == k + 1 && jobs[k].count == |jobs|
           && jobs[k].source == GlslFiles(files)[k]
           && jobs[k].Dest() == JoinPath(debugDir, OutputName(jobs[k].source))
           && jobs[k].dialect == dialect && jobs[k].platform == platform && jobs[k].temp == "build"
  {
    if !noshaders {
      var glsl := GlslFiles(files);
      forall k | 0 <= k < |glsl|
        ensures Numbered(glsl, |glsl|, platform, dialect, debugDir)[k]
             == JobFor(k + 1, |glsl|, glsl[k], dialect, debugDir, platform)
      {
        NumberedAt(glsl, |glsl|, platform, dialect, debugDir, k);
      }
    }
  }

  /** The source's counting pass. */
  method CountShaders(files: seq<string>) returns (shaderCount: nat)
    ensures shaderCount == |GlslFiles(files)|
  {
    shaderCount := 0;
    for i := 0 to |files|
      invariant shaderCount == |GlslFiles(files[..i])|
    {
      GlslFilesSnoc(files, i);
      if IsShaderSource(files[i]) {
        shaderCount := shaderCount + 1;
      }
    }
    assert files[..|files|] == files;
  }

  /** The source's two passes, a counting loop and a numbering loop; they
      produce `ShaderJobs`. */
  method PlanShaderJobs(files: seq<string>, noshaders: bool, platform: string, dialect: string, debugDir: string)
    returns (jobs: seq<ShaderJob>)
    ensures jobs == ShaderJobs(files, noshaders, platform, dialect, debugDir)
  {
    jobs := [];
    if noshaders {
      return;
    }
    var shaderCount := CountShaders(files);
    var shaderIndex := 0;
    for i := 0 to |files|
      invariant shaderIndex == |jobs|
      invariant jobs == Numbered(GlslFiles(files[..i]), shaderCount, platform, dialect, debugDir)
    {
      NumberingStep(files, i, jobs, shaderIndex, shaderCount, platform, dialect, debugDir);
      if IsShaderSource(files[i]) {
        jobs := jobs + [JobFor(shaderIndex + 1, shaderCount, files[i], dialect, debugDir, platform)];
        shaderIndex := shaderIndex + 1;
      }
    }
    assert files[..|files|] == files;
  }
}

=== FILE: stderr_parser.dfy ===
/** The shader compiler's stderr line reassembler (src/main.ts:147-177).

    Stderr arrives in chunks of arbitrary size. Three variables carried across
    chunks (the partial line, whether the next character starts a line, and
    whether the current line is a `#`-marked data line) turn the character
    stream into one event per newline: a marked line goes to the no-op data
    handler, any other line is logged as an error after trimming. */
module StderrParser {
  import opened Strings

  datatype State = State(line: string, atLineStart: bool, marked: bool)

  /** The state before any character and after every newline. */
  const Initial: State := State("", true, false)

  datatype Event =
    | LoggedError(text: string)   // `log.error(errorLine.trim())`
    | Discarded(text: string)     // `parseData(errorLine.trim())`, which does nothing

  /** One character of input. */
  function Step(st: State, c: char): (r: (State, seq<Event>))
  {
    if c == '\n' then
      (Initial, [if st.marked then Discarded(Trim(st.line)) else LoggedError(Trim(st.line))])
    else if st.atLineStart && c == '#' then
      (State(st.line, false, true), [])
    else
      (State(st.line + [c], false, st.marked), [])
  }

  function CountNewlines(s: string): nat
  {
    if s == [] then 0 else (if s[0] == '\n' then 1 else 0) + CountNewlines(s[1..])
  }

  /** Feeding a run of characters: the final state and the events, in order.
      Exactly one event per newline. */
  function Feed(st: State, s: string): (r: (State, seq<Event>))
    ensures |r.1| == CountNewlines(s)
    decreases |s|
  {
    if s == [] then (st, [])
    else
      var (st1, e1) := Step(st, s[0]);
      var (st2, e2) := Feed(st1, s[1..]);
      (st2, e1 + e2)
  }

  /** Feeding `a` and then `b` from the state `a` left behind is feeding `a + b`. */
  lemma {:induction false} FeedConcat(st: State, a: string, b: string)
    ensures Feed(st, a + b).0 == Feed(Feed(st, a).0, b).0
    ensures Feed(st, a + b).1 == Feed(st, a).1 + Feed(Feed(st, a).0, b).1
    decreases |a|
  {
    if a == [] {
      assert a + b == b;
    } else {
      assert (a + b)[0] == a[0];
      assert (a + b)[1..] == a[1..] + b;
      var (st1, e1) := Step(st, a[0]);
      FeedConcat(st1, a[1..], b);
      var (sa, ea) := Feed(st1, a[1..]);
      var (sb, eb) := Feed(sa, b);
      assert e1 + (ea + eb) == (e1 + ea) + eb;
    }
  }

  /** The concatenation of a list of chunks. */
  function Concat(chunks: seq<string>): string
  {
    if chunks == [] then "" else chunks[0] + Concat(chunks[1..])
  }

  /** Feeding the chunks one after another, carrying the state, as the
      `'data'` handler does. */
  function FeedChunks(st: State, chunks: seq<string>): (r: (State, seq<Event>))
    decreases |chunks|
  {
    if chunks == [] then (st, [])
    else
      var (st1, e1) := Feed(st, chunks[0]);
      var (st2, e2) := FeedChunks(st1, chunks[1..]);
      (st2, e1 + e2)
  }

  /** Chunk boundaries never change the outcome: any split of the decoded
      character stream gives the same events and the same final state as the
      whole stream. */
  lemma {:induction false} ChunkIndependence(st: State, chunks: seq<string>)
    ensures FeedChunks(st, chunks) == Feed(st, Concat(chunks))
    decreases |chunks|
  {
    if chunks != [] {
      FeedConcat(st, chunks[0], Concat(chunks[1..]));
      ChunkIndependence(Feed(st, chunks[0]).0, chunks[1..]);
    }
  }

  predicate NoNewline(s: string)
  {
    forall k :: 0 <= k < |s| ==> s[k] != '\n'
  }

  /** Inside a line, every character but a newline is appended as text,
      a `#` included. */
  lemma {:induction false} FeedWithinLine(buf: string, marked: bool, t: string)
    requires NoNewline(t)
    ensures Feed(State(buf, false, marked), t) == (State(buf + t, false, marked), [])
    decreases |t|
  {
    if t == [] {
      assert buf + t == buf;
    } else {
      assert buf + [t[0]] + t[1..] == buf + t;
      FeedWithinLine(buf + [t[0]], marked, t[1..]);
    }
  }

  /** The event one complete line produces: a line whose first character is
      `#` is discarded (without the `#`), any other line is logged trimmed. */
  function LineEvent(line: string): Event
  {
    if |line| > 0 && line[0] == '#' then Discarded(Trim(line[1..])) else LoggedError(Trim(line))
  }

  /** The state in which an unterminated line stays buffered. */
  function Pending(tail: string): State
  {
    if tail == [] then Initial
    else if tail[0] == '#' then State(tail[1..], false, true)
    else State(tail, false, false)
  }

  /** A partial line from the start of a line is buffered and emits nothing. */
  lemma {:induction false} PartialLine(tail: string)
    requires NoNewline(tail)
    ensures Feed(Initial, tail) == (Pending(tail), [])
  {
    if tail != [] {
      if tail[0] == '#' {
        FeedWithinLine("", true, tail[1..]);
        assert "" + tail[1..] == tail[1..];
      } else {
        assert Step(Initial, tail[0]).0 == State([tail[0]], false, false);
        FeedWithinLine([tail[0]], false, tail[1..]);
        assert [tail[0]] + tail[1..] == tail;
      }
    }
  }

  /** A complete line from the start of a line emits exactly its event and
      returns to the initial state. */
  lemma {:induction false} CompleteLine(line: string)
    requires NoNewline(line)
    ensures Feed(Initial, line + "\n") == (Initial, [LineEvent(line)])
  {
    PartialLine(line);
    FeedConcat(Initial, line, "\n");
    var st := Pending(line);
    assert "\n"[0] == '\n' && "\n"[1..] == [];
    assert Step(st, '\n') == (Initial, [LineEvent(line)]);
    assert Feed(st, "\n") == (Initial, [LineEvent(line)] + []);
    assert Feed(Initial, line).1 + Feed(st, "\n").1 == [LineEvent(line)];
  }

  /** Lines joined with a terminating newline each. */
  function JoinLines(lines: seq<string>): string
  {
    if lines == [] then "" else lines[0] + "\n" + JoinLines(lines[1..])
  }

  function LineEvents(lines: seq<string>): (r: seq<Event>)
    ensures |r| == |lines|
  {
    if lines == [] then [] else [LineEvent(lines[0])] + LineEvents(lines[1..])
  }

  /** The events of a list of lines are the lines' own events, position by
      position. */
  lemma {:induction false} LineEventsAt(lines: seq<string>, k: nat)
    requires k < |lines|
    ensures LineEvents(lines)[k] == LineEvent(lines[k])
    decreases k
  {
    assert LineEvents(lines) == [LineEvent(lines[0])] + LineEvents(lines[1..]);
    if k > 0 {
      LineEventsAt(lines[1..], k - 1);
      assert lines[1..][k - 1] == lines[k];
    }
  }

  /** Reference behaviour of the whole reassembler: a stream made of complete
      lines followed by an unterminated tail emits one event per complete line,
      in order, and leaves the tail buffered. */
  lemma {:induction false} Reassembly(lines: seq<string>, tail: string)
    requires forall k :: 0 <= k < |lines| ==> NoNewline(lines[k])
    requires NoNewline(tail)
    ensures Feed(Initial, JoinLines(lines) + tail) == (Pending(tail), LineEvents(lines))
    decreases |lines|
  {
    if lines == [] {
      assert JoinLines(lines) + tail == tail;
      PartialLine(tail);
    } else {
      var first := lines[0] + "\n";
      var rest := JoinLines(lines[1..]) + tail;
      assert JoinLines(lines) + tail == first + rest;
      FeedConcat(Initial, first, rest);
      CompleteLine(lines[0]);
      Reassembly(lines[1..], tail);
    }
  }

  /** The complete lines of a stream and its unterminated tail. */
  function SplitLines(s: string): (seq<string>, string)
  {
    if s == [] then ([], "")
    else
      var (lines, tail) := SplitLines(s[1..]);
      if s[0] == '\n' then ([""] + lines, tail)
      else if lines == [] then ([], [s[0]] + tail)
      else ([[s[0]] + lines[0]] + lines[1..], tail)
  }

  /** Every stream is complete lines followed by an unterminated tail, so
      the reassembly above covers every input. */
  lemma {:induction false} SplitLinesSpec(s: string)
    ensures var (lines, tail) := SplitLines(s);
      && (forall k :: 0 <= k < |lines| ==> NoNewline(lines[k]))
      && NoNewline(tail)
      && JoinLines(lines) + tail == s
  {
    if s != [] {
      SplitLinesSpec(s[1..]);
      var (lines, tail) := SplitLines(s[1..]);
      if s[0] == '\n' {
        assert JoinLines([""] + lines) == "" + "\n" + JoinLines(lines) by {
          assert ([""] + lines)[1..] == lines;
        }
      } else if lines == [] {
        assert [s[0]] + tail == s;
      } else {
        var first := [s[0]] + lines[0];
        var joined := [first] + lines[1..];
        assert NoNewline(first);
        assert joined[1..] == lines[1..];
        assert JoinLines(joined) == first + "\n" + JoinLines(lines[1..]);
        assert JoinLines(lines) == lines[0] + "\n" + JoinLines(lines[1..]);
        assert JoinLines(joined) + tail == [s[0]] + (JoinLines(lines) + tail);
        assert forall k :: 1 <= k < |joined| ==> joined[k] == lines[k];
      }
    }
  }

  /** The whole reassembler on any stream: one event per complete line, in
      order, and the unterminated tail buffered. */
  lemma ReassemblyOfAnyStream(s: string)
    ensures Feed(Initial, s) == (Pending(SplitLines(s).1), LineEvents(SplitLines(s).0))
  {
    SplitLinesSpec(s);
    Reassembly(SplitLines(s).0, SplitLines(s).1);
  }

  /** A line that starts with `#` is never logged as an error; any other line
      is logged, trimmed, exactly once. */
  lemma MarkedLinesNeverLogged(lines: seq<string>, k: nat)
    requires forall i :: 0 <= i < |lines| ==> NoNewline(lines[i])
    requires k < |lines|
    ensures var events := Feed(Initial, JoinLines(lines)).1;
      && |events| == |lines|
      && (|lines[k]| > 0 && lines[k][0] == '#' ==> events[k].Discarded?)
      && (!(|lines[k]| > 0 && lines[k][0] == '#') ==> events[k] == LoggedError(Trim(lines[k])))
  {
    Reassembly(lines, "");
    LineEventsAt(lines, k);
    assert JoinLines(lines) + "" == JoinLines(lines);
  }

  /** The loop step of the `'data'` handler: if the events so far plus the
      feed of the rest make up the whole feed, that stays so after one more
      character. */
  lemma {:induction false} FeedAdvance(st: State, chunk: string, i: nat, cur: State, before: seq<Event>)
    requires i < |chunk|
    requires Feed(st, chunk).0 == Feed(cur, chunk[i..]).0
    requires Feed(st, chunk).1 == before + Feed(cur, chunk[i..]).1
    ensures Feed(st, chunk).0 == Feed(Step(cur, chunk[i]).0, chunk[i + 1..]).0
    ensures Feed(st, chunk).1 == (before + Step(cur, chunk[i]).1) + Feed(Step(cur, chunk[i]).0, chunk[i + 1..]).1
  {
    var s := chunk[i..];
    assert s[0] == chunk[i] && s[1..] == chunk[i + 1..];
    var rest := Feed(Step(cur, chunk[i]).0, chunk[i + 1..]).1;
    assert Feed(cur, s).1 == Step(cur, chunk[i]).1 + rest;
    assert before + (Step(cur, chunk[i]).1 + rest) == (before + Step(cur, chunk[i]).1) + rest;
  }

  /** The `'data'` handler on one chunk, written as the character loop of the
      source; it agrees with `Feed`. */
  method OnData(st: State, chunk: string) returns (st': State, events: seq<Event>)
    ensures (st', events) == Feed(st, chunk)
    ensures |events| == CountNewlines(chunk)
  {
    var errorLine, newErrorLine, errorData := st.line, st.atLineStart, st.marked;
    events := [];
    for i := 0 to |chunk|
      invariant Feed(st, chunk).0 == Feed(State(errorLine, newErrorLine, errorData), chunk[i..]).0
      invariant Feed(st, chunk).1 == events + Feed(State(errorLine, newErrorLine, errorData), chunk[i..]).1
    {
      var c := chunk[i];
      ghost var next := Step(State(errorLine, newErrorLine, errorData), c);
      ghost var before := events;
      FeedAdvance(st, chunk, i, State(errorLine, newErrorLine, errorData), events);
      if c == '\n' {
        if errorData {
          events := events + [Discarded(Trim(errorLine))];
        } else {
          events := events + [LoggedError(Trim(errorLine))];
        }
        errorLine := "";
        newErrorLine := true;
        errorData := false;
      } else if newErrorLine && c == '#' {
        errorData := true;
        newErrorLine := false;
      } else {
        errorLine := errorLine + [c];
        newErrorLine := false;
      }
      assert next.0 == State(errorLine, newErrorLine, errorData);
      assert events == before + next.1;
    }
    assert chunk[|chunk|..] == [];
    assert events + [] == events;
    st' := State(errorLine, newErrorLine, errorData);
  }
}

=== FILE: strings.dfy ===
/** The handful of JavaScript string operations the orchestrator relies on:
    `startsWith`, `endsWith`, `lastIndexOf` for one character, `trim`, and the
    `/`-separated joining used for paths. */
module Strings {

  predicate StartsWith(s: string, prefix: string)
  {
    |prefix| <= |s| && s[..|prefix|] == prefix
  }

  predicate EndsWith(s: string, suffix: string)
  {
    |suffix| <= |s| && s[|s| - |suffix|..] == suffix
  }

  /** A concatenation starts with its first part and ends with its second. */
  lemma JoinEnds(a: string, b: string)
    ensures StartsWith(a + b, a) && EndsWith(a + b, b)
  {
    assert (a + b)[..|a|] == a;
    assert (a + b)[|a|..] == b;
  }

  /** `s.lastIndexOf(c)`: the position of the last `c`, or -1 when there is none. */
  function LastIndexOf(s: string, c: char): (r: int)
    ensures -1 <= r < |s|
    ensures r >= 0 ==> s[r] == c
    ensures forall k :: r < k < |s| ==> s[k] != c
  {
    if |s| == 0 then -1
    else if s[|s| - 1] == c then |s| - 1
    else LastIndexOf(s[..|s| - 1], c)
  }

  /** The characters `String.prototype.trim` removes: the ECMAScript
      WhiteSpace and LineTerminator code points. */
  predicate IsJsWhitespace(c: char)
  {
    || c == ' ' || c == '\t' || c == '\n' || c == '\r'
    || c == '\U{000B}' || c == '\U{000C}' || c == '\U{00A0}' || c == '\U{1680}'
    || ('\U{2000}' <= c <= '\U{200A}')
    || c == '\U{2028}' || c == '\U{2029}' || c == '\U{202F}' || c == '\U{205F}'
    || c == '\U{3000}' || c == '\U{FEFF}'
  }

  /** Drops leading whitespace. */
  function TrimStart(s: string): string
  {
    if |s| > 0 && IsJsWhitespace(s[0]) then TrimStart(s[1..]) else s
  }

  /** Drops trailing whitespace. */
  function TrimEnd(s: string): string
  {
    if |s| > 0 && IsJsWhitespace(s[|s| - 1]) then TrimEnd(s[..|s| - 1]) else s
  }

  /** `s.trim()`. */
  function Trim(s: string): string
  {
    TrimEnd(TrimStart(s))
  }

  /** What `TrimStart` keeps is a suffix of `s`, everything it cut is
      whitespace, and what it keeps does not start with whitespace. */
  lemma {:induction false} TrimStartSpec(s: string)
    ensures var r := TrimStart(s);
      && |r| <= |s| && r == s[|s| - |r|..]
      && (forall k :: 0 <= k < |s| - |r| ==> IsJsWhitespace(s[k]))
      && (r == [] || !IsJsWhitespace(r[0]))
    decreases |s|
  {
    if |s| > 0 && IsJsWhitespace(s[0]) {
      TrimStartSpec(s[1..]);
    }
  }

  /** What `TrimEnd` keeps is a prefix of `s`, everything it cut is
      whitespace, and what it keeps does not end with whitespace. */
  lemma {:induction false} TrimEndSpec(s: string)
    ensures var r := TrimEnd(s);
      && |r| <= |s| && r == s[..|r|]
      && (forall k :: |r| <= k < |s| ==> IsJsWhitespace(s[k]))
      && (r == [] || !IsJsWhitespace(r[|r| - 1]))
    decreases |s|
  {
    if |s| > 0 && IsJsWhitespace(s[|s| - 1]) {
      TrimEndSpec(s[..|s| - 1]);
    }
  }

  /** `trim` keeps a contiguous part of `s` that neither starts nor ends with
      whitespace, cuts only whitespace, and is empty exactly for an
      all-whitespace string. */
  lemma TrimSpec(s: string)
    ensures var r, i := Trim(s), |s| - |TrimStart(s)|;
      && |r| <= |s| && 0 <= i <= |s| - |r| && r == s[i..i + |r|]
      && (forall k :: 0 <= k < i ==> IsJsWhitespace(s[k]))
      && (forall k :: i + |r| <= k < |s| ==> IsJsWhitespace(s[k]))
      && (r == [] || (!IsJsWhitespace(r[0]) && !IsJsWhitespace(r[|r| - 1])))
      && (r == [] <==> forall k :: 0 <= k < |s| ==> IsJsWhitespace(s[k]))
  {
    var t := TrimStart(s);
    TrimStartSpec(s);
    TrimEndSpec(t);
    var r := TrimEnd(t);
    var i := |s| - |t|;
    assert t == s[i..];
    assert r == t[..|r|];
    forall k | i + |r| <= k < |s| ensures IsJsWhitespace(s[k]) {
      assert s[k] == t[k - i];
    }
    if r == [] && t != [] {
      assert false;
    }
    if r != [] {
      assert s[i] == r[0];
    }
  }

  function DigitChar(d: nat): (c: char)
    requires d < 10
    ensures '0' <= c <= '9'
    ensures c as int - '0' as int == d
  {
    ('0' as int + d) as char
  }

  /** A text of decimal digits only. */
  predicate IsDigits(s: string)
  {
    forall k :: 0 <= k < |s| ==> '0' <= s[k] <= '9'
  }

  /** The decimal text JavaScript produces when a non-negative integer is
      concatenated to a string. */
  function NatToString(n: nat): (r: string)
    ensures |r| >= 1 && IsDigits(r)
  {
    if n < 10 then [DigitChar(n)] else NatToString(n / 10) + [DigitChar(n % 10)]
  }

  /** Different numbers have different decimal texts. */
  lemma {:induction false} NatToStringInjective(a: nat, b: nat)
    requires NatToString(a) == NatToString(b)
    ensures a == b
    decreases a
  {
    if a >= 10 && b >= 10 {
      var sa, sb := NatToString(a), NatToString(b);
      assert sa[|sa| - 1] == DigitChar(a % 10) && sb[|sb| - 1] == DigitChar(b % 10);
      assert sa[..|sa| - 1] == NatToString(a / 10) && sb[..|sb| - 1] == NatToString(b / 10);
      NatToStringInjective(a / 10, b / 10);
    }
  }

  /** Two suffixes of one text: the shorter one also ends the longer, which
      is its own front followed by it. */
  lemma SuffixOfSuffix(s: string, longer: string, shorter: string)
    ensures EndsWith(s, longer) && EndsWith(s, shorter) && |shorter| <= |longer| ==>
              longer[..|longer| - |shorter|] + shorter == longer
  {
    if EndsWith(s, longer) && EndsWith(s, shorter) && |shorter| <= |longer| {
      assert longer[|longer| - |shorter|..] == s[|s| - |shorter|..];
      assert longer == longer[..|longer| - |shorter|] + longer[|longer| - |shorter|..];
    }
  }

  /** The characters of a concatenation, on either side of the join. */
  lemma CharOfJoin(a: string, b: string, k: int)
    ensures 0 <= k < |a| ==> (a + b)[k] == a[k]
    ensures |a| <= k < |a| + |b| ==> (a + b)[k] == b[k - |a|]
  {
  }

  /** Digits followed by a space can be split off unambiguously: two such
      texts that are equal have the same digits and the same rest. */
  lemma DigitsBeforeSpace(d1: string, r1: string, d2: string, r2: string)
    requires d1 + r1 == d2 + r2
    requires IsDigits(d1)
    requires IsDigits(d2)
    requires |r1| >= 1 && r1[0] == ' ' && |r2| >= 1 && r2[0] == ' '
    ensures d1 == d2 && r1 == r2
  {
    CharOfJoin(d1, r1, |d2|);
    CharOfJoin(d2, r2, |d1|);
    assert |d1| == |d2|;
    assert d1 == (d1 + r1)[..|d1|] && d2 == (d2 + r2)[..|d2|];
    assert r1 == (d1 + r1)[|d1|..] && r2 == (d2 + r2)[|d2|..];
  }

  /** Two texts `p + i + o + c + t` agree in their parts when `i` and `c`
      are digit runs and `o` and `t` start with a space. */
  lemma TwoNumbersApart(p: string, o: string, i1: string, c1: string, t1: string, i2: string, c2: string, t2: string)
    requires p + (i1 + (o + (c1 + t1))) == p + (i2 + (o + (c2 + t2)))
    requires IsDigits(i1)
    requires IsDigits(i2)
    requires IsDigits(c1)
    requires IsDigits(c2)
    requires |o| >= 1 && o[0] == ' ' && |t1| >= 1 && t1[0] == ' ' && |t2| >= 1 && t2[0] == ' '
    ensures i1 == i2 && c1 == c2 && t1 == t2
  {
    assert i1 + (o + (c1 + t1)) == (p + (i1 + (o + (c1 + t1))))[|p|..];
    assert i2 + (o + (c2 + t2)) == (p + (i2 + (o + (c2 + t2))))[|p|..];
    DigitsBeforeSpace(i1, o + (c1 + t1), i2, o + (c2 + t2));
    assert c1 + t1 == (o + (c1 + t1))[|o|..];
    assert c2 + t2 == (o + (c2 + t2))[|o|..];
    DigitsBeforeSpace(c1, t1, c2, t2);
  }

  /** The middle of `a + m + z` is determined by the whole. */
  lemma MiddleOf(a: string, m1: string, m2: string, z: string)
    requires a + m1 + z == a + m2 + z
    ensures m1 == m2
  {
    assert m1 == (a + m1 + z)[|a|..|a| + |m1|];
    assert m2 == (a + m2 + z)[|a|..|a| + |m2|];
  }

  /** Regrouping a five-part concatenation to the right. */
  lemma JoinRight(a: string, b: string, c: string, d: string, e: string)
    ensures a + b + c + d + e == a + (b + (c + (d + e)))
  {
  }

  /** Joining two path segments with one separator. */
  function JoinPath(a: string, b: string): (r: string)
    ensures |r| == |a| + 1 + |b|
    ensures StartsWith(r, a) && EndsWith(r, b) && r[|a|] == '/'
  {
    a + "/" + b
  }
}
